=== FILE: README.md ===
# stl-to-obj in Dafny

A model of the converter in `stl-to-obj.py`, which turns STL meshes into
Wavefront OBJ text (or ASCII STL text). It covers:

- **Opening a file.** `open_stl` decides between the ASCII and the binary reader.
- **ASCII reader.** `read_name` reads the header, and `read_vectors` makes the
  seven-line facet cycle.
- **Binary reader.** `read_vectors` reads the 80-byte header, the little-endian
  facet count and the 50-byte records.
- **Grouping.** `_STLFile.__iter__` groups the vector stream into
  (normal, v1, v2, v3) facets, mapping the vertices through
  `transform_vert` when a matrix is set.
- **Writers.** `to_obj` and `to_ascii` turn the facets into text.

Each reader produces a `Stream`: the vectors it yields, then how the generator
ends. It may end normally, or it may raise one of the exceptions the Python
code can raise: `StopIteration`, `IndexError`, `ValueError`, `struct.error`
or `RuntimeError`.

Python 3.7 changed how a `StopIteration` escaping a generator body behaves
(PEP 479). Several of the code's edge cases depend on that, so every reader
and the grouping take a `Semantics` parameter:

- `AsWritten` models the code as it runs under Python 3.7 and later.
- `Intended` models what its authors evidently meant.

See "## Findings" for the two places where the two differ.

`Semantics` moves two switches together: the PEP 479 conversion and which line
the ASCII reader tests first. So the code as written running under Python 3.6
cannot be expressed: the header tested as a facet line, with a clean end when
input runs out. In that combination `to_obj` would write `s 1` and the group
and return 0.

Behaviours worth noting, all kept by the model:

- A short binary file raises `struct.error`.
- `to_obj` returns the number of vertices written, whatever the offset.
- The ASCII reader takes the last three tokens of the normal line and of each
  vertex line. It skips the `outer loop`, `endloop` and `endfacet` lines
  without splitting or checking them.
- The floats are decoded in host byte order (`'3f'`); the facet count is read
  little-endian.
- A name read from the header keeps its trailing newline. Written back with
  `to_ascii`, it puts a blank line after the header, and the reader stops
  there (`RoundTrip.AsciiToAsciiLosesFacets`).

The writers record the text of each `write` call without its final newline,
and the outcome: the returned value or the exception. The single write of
`s 1` and `g <name>` is kept as two records. `Text.Document` joins
the records with newlines again.

Floats are kept abstract as a type parameter `F`. `Mesh.Numerics` bundles
`float(token)`, `'{:6f}'.format`, the IEEE-754 single decoder and the host
byte order as parameters. The `Affine` module instantiates the transformation
over `real`.

Modules:

| module | file | what it covers |
|---|---|---|
| `Wrappers` | `wrappers.dfy` | `Option` and `Result` |
| `Text` | `text.dfy` | whitespace stripping and splitting; line splitting; `readline(5)`; integer formatting |
| `Mesh` | `mesh.dfy` | vectors, facets, exceptions, streams, and `__iter__` as `Group` |
| `Affine` | `affine.dfy` | `transform_vert` as a 4x4 homogeneous matrix product |
| `BinaryStl` | `binary_stl.dfy` | the binary reader, the count codec and the record layout |
| `AsciiStl` | `ascii_stl.dfy` | `read_name` and the ASCII `read_vectors` |
| `Writers` | `writers.dfy` | `to_obj` and `to_ascii` |
| `StlFile` | `stl_file.dfy` | `open_stl`, and the readers, grouping and writers put together |
| `RoundTrip` | `round_trip.dfy` | `to_ascii` output read back by the ASCII reader |

## Model

| member | source | states |
|---|---|---|
| Mesh.Group | stl-to-obj.py:31-38 | facet `j` is vector `4j` as its normal and vectors `4j+1..4j+3` as its vertices, mapped through the transformation; when a transformation is set, a vertex with fewer than three components raises IndexError (without one, short vertices pass through); the iteration ends as the stream ends, or as an exhausted generator does |
| Mesh.NormalPassesThrough | stl-to-obj.py:36-38 | the normal of every facet is the stream's vector unchanged, whether or not a transformation is set |
| Mesh.GroupNeverEndsCleanlyAsWritten | stl-to-obj.py:33-35 | under Python 3.7+ the facet iteration never ends normally: the StopIteration of the `next` calls becomes an exception |
| Mesh.GroupFlatten | stl-to-obj.py:31-38 | with no transformation, grouping inverts flattening: the stream of a facet sequence's vectors gives back exactly those facets |
| Mesh.GroupDropsPartialFacet | stl-to-obj.py:33-35 | fewer than four trailing vectors never make a facet |
| Mesh.GroupComplete | stl-to-obj.py:31-38 | a stream of three-component vectors groups into exactly a quarter as many facets, and under a transformation that keeps vertices complete every vector of every facet has three components |
| Affine.TransformVert | stl-to-obj.py:22-29 | the transformed vertex has exactly three components: the last row of the homogeneous product is dropped |
| Affine.IdentityKeepsVertex | stl-to-obj.py:22-29 | the identity matrix leaves a three-component vertex unchanged |
| Affine.TranslationMovesVertex | stl-to-obj.py:22-29 | the matrix's last column is added to the vertex, because the vertex is extended with a homogeneous 1 |
| Affine.ScalingScalesVertex | stl-to-obj.py:22-29 | a diagonal matrix scales each coordinate by its factor |
| Affine.TransformCompose | stl-to-obj.py:22-29 | transforming by the product `A·B` (with `B` affine) is transforming by `B` and then by `A` |
| Affine.TransformExamples | stl-to-obj.py:22-29 | scaling by 2 maps (1,2,3) to (2,4,6); the product of a scaling by 2 and an x+1 translation maps the origin to (2,0,0) |
| Affine.MatrixKeepsComplete | stl-to-obj.py:22-29 | a 4x4 matrix always gives three-component vertices, so the grouping never produces a vertex that is too short to format |
| Affine.AffineFacets | stl-to-obj.py:36-38 | with a matrix set, each facet's vertices are the matrix images of the stream's vertices, and the normal is left untransformed |
| BinaryStl.LeU32OfLeBytes | stl-to-obj.py:108 | decoding the four little-endian bytes of a 32-bit count gives the count back |
| BinaryStl.LeBytesOfLeU32 | stl-to-obj.py:108 | every four bytes are the little-endian encoding of the count they decode to |
| BinaryStl.VectorOffsetStep | stl-to-obj.py:107-116 | the first vector starts at byte 84; consecutive vectors are 12 bytes apart, and 14 bytes apart across the two attribute bytes between records |
| BinaryStl.ReadVectors | stl-to-obj.py:105-116 | a file shorter than 84 bytes raises struct.error and yields nothing; at most four vectors per declared facet; a normal end means exactly four vectors per declared facet; the only exception is struct.error |
| BinaryStl.ReadVectorsFloats | stl-to-obj.py:112-115 | component `c` of yielded vector `i` is the float decoded from the 4 bytes at offset VectorOffset(i)+4c, in stored order on a little-endian host and reversed on a big-endian one (`'3f'` uses the native order) |
| BinaryStl.ReadVectorsShapeIgnoresHost | stl-to-obj.py:108-115 | the count is read little-endian on every host: the host's byte order and float decoder never change how many vectors are read or how the reading ends |
| BinaryStl.ReadVectorsFailure | stl-to-obj.py:112-115 | a read fails only at a vector whose 12 bytes run past the end of the file |
| BinaryStl.ReadVectorsLayout | stl-to-obj.py:107-116 | vector `i` is decoded from the 12 bytes at offset 84 + 50(i/4) + 12(i mod 4) |
| BinaryStl.ReadVectorsCleanIff | stl-to-obj.py:107-116 | the reader ends normally if and only if the file holds the header, the count and every declared record; the last record's attribute bytes may be missing, because `seek` past the end does not fail |
| BinaryStl.TrailingBytesIgnored | stl-to-obj.py:110-116 | bytes after the last declared record never change what is read |
| BinaryStl.ReadVectorsLoop | stl-to-obj.py:105-116 | the loop with an explicit file position (seek 80, read the count, four 12-byte reads and a 2-byte seek per record) yields the same stream as the recursive reader |
| AsciiStl.ReadName | stl-to-obj.py:80-84 | an empty file raises StopIteration; a first line without a space raises IndexError; a first line with a space always succeeds, and the name is everything after its first space, newline included |
| AsciiStl.ReadNameOfHeader | stl-to-obj.py:80-84 | the header `solid <name>` reads back as the name followed by the newline |
| AsciiStl.ReadVectors | stl-to-obj.py:86-101 | a failing `read_name` ends the reader with that exception, and StopIteration ends it as an exhausted generator; the only exceptions are ValueError, IndexError and RuntimeError; RuntimeError occurs only under Python 3.7+ semantics |
| AsciiStl.ReadBlocks | stl-to-obj.py:91-101 | consecutive well-formed seven-line facet blocks yield, per block, the normal line's last three numbers, then the three vertex lines' last three numbers, in order |
| AsciiStl.ScanStops | stl-to-obj.py:92 | a tested line that does not start with `facet normal` ends the reader normally, yielding nothing more |
| AsciiStl.HeaderReadAsFacetLine | stl-to-obj.py:86-92 | as written, a file whose first line starts with `solid` yields no vectors, because the first line tested for `facet normal` is the header |
| Writers.ResolveName | stl-to-obj.py:52 | the name is the argument when it is non-empty, else the object's own name when that is non-empty, else `default` |
| Writers.VectorLine | stl-to-obj.py:45 | formatting a vector fails with IndexError exactly when it has fewer than three components |
| Writers.VectorLineFirstThree | stl-to-obj.py:45-50 | only the first three components of a vector reach its `v` line; extra components are ignored by `format` |
| Writers.ToObj | stl-to-obj.py:43-56 | the output starts with `g default`; `to_obj` returns if and only if the facet stream ends normally with every vertex complete, and it then returns three times the facet count |
| Writers.ToObjLayout | stl-to-obj.py:43-56 | a finished run writes `g default`, vertex `m` of facet `j` as `v` line `3j+m`, `s 1`, `g <name>`, and face line `j` naming vertices offset+3j+1 to offset+3j+3 |
| Writers.ToObjFailure | stl-to-obj.py:47-51 | an interrupted run writes only `g default` and `v` lines, never `s 1`; its exception is the short vertex's IndexError if one comes first, otherwise the stream's own |
| Writers.ToObjOutcomeIgnoresOffset | stl-to-obj.py:54-56 | the offset shifts only the face numbers: what `to_obj` returns, or raises, does not depend on it |
| Writers.ToObjIgnoresNormals | stl-to-obj.py:47-51 | facets that differ only in their normals produce the same OBJ output |
| Writers.FaceLineTokens | stl-to-obj.py:54-55 | the face line for start `i` splits into `f` and three words that read back (as `int()` would) as `i+1`, `i+2`, `i+3` |
| Writers.FaceLinesExample | stl-to-obj.py:54-55 | one facet at offset 0 gives `f 1 2 3`; two facets after three earlier vertices give `f 4 5 6` and `f 7 8 9` |
| Writers.ToAscii | stl-to-obj.py:58-69 | the output starts with `solid <name>`; a finished run ends with `endsolid <name>` and required the stream to end normally |
| Writers.ToAsciiSucceedsIff | stl-to-obj.py:58-69 | `to_ascii` finishes if and only if the facet stream ends normally and no vector is short |
| Writers.ToAsciiLayout | stl-to-obj.py:58-69 | a finished run writes `solid <name>`, then line `m` of facet `j`'s seven-line block at position `7j+m`, then `endsolid <name>` |
| Writers.WritersAgreeOnName | stl-to-obj.py:52-53 | `to_obj`'s `g` line names the same group that `to_ascii`'s `solid` line names |
| StlFile.DetectIff | stl-to-obj.py:118-126 | a file is read as ASCII if and only if it decodes as text starting with `solid`, case-sensitively |
| StlFile.DetectExamples | stl-to-obj.py:118-126 | `solidx` is ASCII; ` solid`, `SOLID` and undecodable bytes are binary |
| StlFile.OpenStl | stl-to-obj.py:118-126 | the reader matches the detection; a binary file keeps its bytes and an ASCII file the lines of its text; a given name and transformation are kept, and a binary file opened without one has none; an ASCII file opened without a name opens exactly when `read_name` succeeds on its lines and is named by it; the only failure is that IndexError |
| StlFile.OpenStlAscii | stl-to-obj.py:121-124 | a text starting with `solid` whose first line has a space opens, without a name, as an ASCII file over its lines named by `read_name` |
| StlFile.OpenStlName | stl-to-obj.py:75-84 | an ASCII file opened without a name is named after the text following the first space of its first line |
| StlFile.BinaryFacets | stl-to-obj.py:31-38 | a complete binary file gives one facet per declared record: the record's normal and its three vertices mapped through the transformation, if one is set; every vector is complete when the transformation keeps vertices complete |
| StlFile.BinaryToObj | stl-to-obj.py:43-56 | converting a complete binary file, with no transformation or one that keeps vertices complete, is meant to write 3 + 4n lines and return 3n; as written it stops after the `v` lines with RuntimeError |
| StlFile.BinaryToObjWithMatrix | stl-to-obj.py:181-186 | the command-line conversion (a 4x4 matrix set, then `to_obj` with no name and offset 0): facet `j` holds the matrix images of record `j`'s vertices; `to_obj` is meant to return 3n and, as written, raises RuntimeError |
| StlFile.ToObjNeverFinishesAsWritten | stl-to-obj.py:31-38 | under Python 3.7+, `to_obj` never returns and never writes `s 1` |
| StlFile.ToAsciiNeverFinishesAsWritten | stl-to-obj.py:58-69 | under Python 3.7+, `to_ascii` never finishes |
| StlFile.AsciiYieldsNothingAsWritten | stl-to-obj.py:86-92 | as written, every file opened as ASCII yields no vectors and no facets |
| RoundTrip.FormattedParse | stl-to-obj.py:62-66 | the three formatted components of a vector parse back to the vector rounded through the text |
| RoundTrip.ReadBackDocument | stl-to-obj.py:86-101 | a finished `to_ascii` document, read by the reader as intended, yields every facet's four vectors (rounded) and ends normally |
| RoundTrip.OpenDocument | stl-to-obj.py:118-126 | a `to_ascii` document opens as an ASCII file named after its header, with the newline |
| RoundTrip.HeaderFacetsAsWritten | stl-to-obj.py:86-92 | as written, the loop tests the document's own `solid <name>` line, which is not a facet line, so no vector is read and the facet iteration ends with a RuntimeError and no facet |
| RoundTrip.NewlineNameStopsReader | stl-to-obj.py:58-60 | a name whose only newline is its last character makes `to_ascii` write `solid <name>` and a blank line; either reader then yields nothing and ends normally |
| RoundTrip.AsciiToAsciiLosesFacets | stl-to-obj.py:58-60 | an ASCII file opened without a name, whose text holds a newline, written back with `to_ascii` reads back with no vectors and a normal end, under either reader |
| RoundTrip.AsciiRoundTrip | stl-to-obj.py:58-69 | `to_ascii` followed by `open_stl` gives back the facets (rounded) and the name plus a newline when read as intended; as written, it gives no facets and a RuntimeError |
| RoundTrip.BinaryToAsciiRoundTrip | stl-to-obj.py:104-116 | a complete binary file, under a transformation that keeps vertices complete, written by `to_ascii` and read back as intended gives the transformed facets, each coordinate rounded through the text |

## Left out

- The file walking and path building of `main`, and `getListOfFiles` and
  `createFolder`, are file-system I/O and are not modelled. The conversion
  `main` runs on each file (a matrix set, then `to_obj`) is modelled by
  `StlFile.BinaryToObjWithMatrix`.
- The message printed when `numpy` is missing is left out. It is output only.
- Floating point is abstract. `float(token)`, `'{:6f}'.format`, the IEEE-754
  single decoder and the host byte order are parameters (`Mesh.Numerics`).
  The `Affine` module states the transformation over exact reals. It does not
  model numpy's float64 rounding.
- Affine.TransformVert: defined for 4x4 matrices only, the shape the
  command-line driver builds. Other shapes behave differently in numpy:
  - A 3x4 matrix gives two-component vertices, so `to_obj` raises IndexError
    when it formats them.
  - A matrix with five or more rows gives extra components, which the
    formatting ignores (`Writers.VectorLineFirstThree`).
  - Shapes whose rows do not have four entries make `dot` raise.
- `Mesh.Transform` takes any function as the transformation.
  `Affine.AsTransform` is the matrix case.
- Files are given whole: the lines of a text file, or the bytes of a binary
  one. A `UnicodeDecodeError` is modelled as a text that is absent. The
  generators' laziness is modelled by the prefix of vectors yielded before
  the stream ends.
- A text file's text is taken after Python's universal-newline translation
  (`StlFile.File`). `\r\n` line endings are not modelled separately: Python
  reads them as `\n`, so a CRLF header still yields a name ending in `\n`.
- The writers record the text of their `write` calls, not the file object's
  buffering or the final newline characters. `Text.Document` puts the newlines back for read-back.
- The assignment of `self.name` inside the ASCII `read_vectors`
  (stl-to-obj.py:89-90) is left out. It never runs: the constructor has
  already set the name.
- AsciiStl.ReadVectors: states the possible exceptions, not a full
  characterisation of every malformed document. The well-formed case is in
  AsciiStl.ReadBlocks and RoundTrip.ReadBackDocument.
- RoundTrip.AsciiRoundTrip: assumes the formatter writes one word that parses
  back (`RoundTrip.FormatParses`) and that the name holds no newline. The two
  assumptions differ in kind:
  - The one-word formatter comes from the proof, not from the program:
    Python's `split()` reads back a padded `   nan` or `   inf`. Formatters
    that pad with spaces are not covered.
  - The newline-free name is a real limit of the program. A name ending in a
    newline, as every ASCII file opened without a name and holding a newline
    gets, makes the round trip lose every facet, even with the reader as
    meant (`RoundTrip.NewlineNameStopsReader`).
- RoundTrip.ReadBackDocument: carries the same two assumptions through
  `RoundTrip.Readable`. Each formatted float must be one word that parses back,
  and the name must hold no newline.
- RoundTrip.OpenDocument: carries the same assumptions through
  `RoundTrip.Readable`, although opening a document only depends on its first
  line.
- RoundTrip.BinaryToAsciiRoundTrip: carries the same two assumptions, and
  covers only transformations that keep vertices complete.
- StlFile.BinaryToObj: covers only no transformation or one that keeps vertices
  complete (`Mesh.KeepsComplete`), such as every 4x4 matrix
  (`Affine.MatrixKeepsComplete`). A transformation that shortens a vertex makes
  `to_obj` raise IndexError at the first short vertex. That case is stated for
  any stream by `Writers.ToObjFailure`.

## Findings

| source | as written | input that shows it | evidently intended | confidence | as-written member | corrected member |
|---|---|---|---|---|---|---|
| stl-to-obj.py:31-38 | `__iter__` calls `next(itr)` in a generator; when the vectors run out, the StopIteration escapes and becomes a RuntimeError under Python 3.7 and later (PEP 479) | any binary file with a complete record list, e.g. one with count 0 and 84 bytes | the facet iteration ends normally when the vectors run out, so `to_obj` writes `s 1`, the group and the faces and returns the count | not executed | StlFile.ToObjNeverFinishesAsWritten | StlFile.BinaryToObj |
| stl-to-obj.py:86-92 | the ASCII `read_vectors` calls `read_name` on its own file handle and then tests the first line of its own handle, which is the `solid` header, for `facet normal` | any ASCII STL file, e.g. the output of `to_ascii` for one facet | skip the header line and test the first facet line, so the facets are read | not executed | StlFile.AsciiYieldsNothingAsWritten | RoundTrip.AsciiRoundTrip |

=== FILE: affine.dfy ===
/**
 `_STLFile.transform_vert` as an idealised affine map over `real`: the vertex
 is extended to the homogeneous column `[x, y, z, 1]`, multiplied by the 4x4
 transformation matrix, and the last component of the product is dropped.
 */
module Affine {
  import opened Wrappers
  import opened Mesh

  /** A row-major matrix, as `np.array(self.transformation)` holds it. */
  type Matrix = seq<seq<real>>

  predicate Is4x4(m: Matrix) {
    |m| == 4 && forall i :: 0 <= i < 4 ==> |m[i]| == 4
  }

  /** One row of the matrix times the homogeneous column `[x, y, z, 1]`. */
  function RowTimes(row: seq<real>, v: Vector<real>): real
    requires |row| == 4 && Complete(v)
  {
    row[0] * v[0] + row[1] * v[1] + row[2] * v[2] + row[3]
  }

  /** `transform_vert(vert)`: `(M · [x, y, z, 1])[:-1]`. */
  function TransformVert(m: Matrix, v: Vector<real>): (r: Vector<real>)
    requires Is4x4(m) && Complete(v)
    ensures |r| == 3
  {
    [RowTimes(m[0], v), RowTimes(m[1], v), RowTimes(m[2], v)]
  }

  /**
   The matrix as the transformation `__iter__` applies; a vertex with fewer
   than three components never reaches it (grouping raises IndexError first).
   */
  function AsTransform(m: Matrix): Transform<real>
    requires Is4x4(m)
  {
    v => if Complete(v) then TransformVert(m, v) else v
  }

  /** A 4x4 matrix maps every vertex `__iter__` gives it to a complete one. */
  lemma MatrixKeepsComplete(m: Matrix)
    requires Is4x4(m)
    ensures KeepsComplete(Some(AsTransform(m)))
  {
  }

  function Identity(): (m: Matrix)
    ensures Is4x4(m)
  {
    [[1.0, 0.0, 0.0, 0.0], [0.0, 1.0, 0.0, 0.0], [0.0, 0.0, 1.0, 0.0], [0.0, 0.0, 0.0, 1.0]]
  }

  function Translation(tx: real, ty: real, tz: real): (m: Matrix)
    ensures Is4x4(m)
  {
    [[1.0, 0.0, 0.0, tx], [0.0, 1.0, 0.0, ty], [0.0, 0.0, 1.0, tz], [0.0, 0.0, 0.0, 1.0]]
  }

  function Scaling(sx: real, sy: real, sz: real): (m: Matrix)
    ensures Is4x4(m)
  {
    [[sx, 0.0, 0.0, 0.0], [0.0, sy, 0.0, 0.0], [0.0, 0.0, sz, 0.0], [0.0, 0.0, 0.0, 1.0]]
  }

  /** The identity matrix keeps the first three components of a vertex. */
  lemma IdentityKeepsVertex(v: Vector<real>)
    requires Complete(v)
    ensures TransformVert(Identity(), v) == v[..3]
    ensures |v| == 3 ==> TransformVert(Identity(), v) == v
  {
  }

  /** A translation matrix adds its last column to the vertex. */
  lemma TranslationMovesVertex(tx: real, ty: real, tz: real, v: Vector<real>)
    requires Complete(v)
    ensures TransformVert(Translation(tx, ty, tz), v) == [v[0] + tx, v[1] + ty, v[2] + tz]
  {
  }

  /** A scaling matrix multiplies each component by its factor. */
  lemma ScalingScalesVertex(sx: real, sy: real, sz: real, v: Vector<real>)
    requires Complete(v)
    ensures TransformVert(Scaling(sx, sy, sz), v) == [sx * v[0], sy * v[1], sz * v[2]]
  {
    assert RowTimes(Scaling(sx, sy, sz)[0], v) == sx * v[0];
    assert RowTimes(Scaling(sx, sy, sz)[1], v) == sy * v[1];
    assert RowTimes(Scaling(sx, sy, sz)[2], v) == sz * v[2];
  }

  /** Entry `(i, j)` of the product `a · b`. */
  function Entry(a: Matrix, b: Matrix, i: nat, j: nat): real
    requires Is4x4(a) && Is4x4(b) && i < 4 && j < 4
  {
    a[i][0] * b[0][j] + a[i][1] * b[1][j] + a[i][2] * b[2][j] + a[i][3] * b[3][j]
  }

  /** The matrix product `a · b`, as `numpy.dot` computes it. */
  function MatMul(a: Matrix, b: Matrix): (c: Matrix)
    requires Is4x4(a) && Is4x4(b)
    ensures Is4x4(c)
  {
    seq(4, i requires 0 <= i < 4 => seq(4, j requires 0 <= j < 4 => Entry(a, b, i, j)))
  }

  /** The last row of an affine matrix: it keeps the homogeneous coordinate at 1. */
  predicate IsAffine(m: Matrix)
    requires Is4x4(m)
  {
    m[3] == [0.0, 0.0, 0.0, 1.0]
  }

  /** One component of a vector times a row, spread over the row's terms. */
  lemma Spread(k: real, p: real, q: real, r: real, t: real, x: real, y: real, z: real)
    ensures k * (p * x + q * y + r * z + t) == (k * p) * x + (k * q) * y + (k * r) * z + k * t
  {
  }

  /** Row `i` of `a · b` applied to `v` is row `i` of `a` applied to the image of `v` under `b`. */
  lemma RowCompose(a: Matrix, b: Matrix, i: nat, v: Vector<real>)
    requires Is4x4(a) && Is4x4(b) && IsAffine(b) && i < 4 && Complete(v)
    ensures RowTimes(MatMul(a, b)[i], v) == RowTimes(a[i], TransformVert(b, v))
  {
    var c := MatMul(a, b)[i];
    var w := TransformVert(b, v);
    var x, y, z := v[0], v[1], v[2];
    assert c[0] == a[i][0] * b[0][0] + a[i][1] * b[1][0] + a[i][2] * b[2][0];
    assert c[1] == a[i][0] * b[0][1] + a[i][1] * b[1][1] + a[i][2] * b[2][1];
    assert c[2] == a[i][0] * b[0][2] + a[i][1] * b[1][2] + a[i][2] * b[2][2];
    assert c[3] == a[i][0] * b[0][3] + a[i][1] * b[1][3] + a[i][2] * b[2][3] + a[i][3];
    Spread(a[i][0], b[0][0], b[0][1], b[0][2], b[0][3], x, y, z);
    Spread(a[i][1], b[1][0], b[1][1], b[1][2], b[1][3], x, y, z);
    Spread(a[i][2], b[2][0], b[2][1], b[2][2], b[2][3], x, y, z);
    assert w[0] == b[0][0] * x + b[0][1] * y + b[0][2] * z + b[0][3];
    assert w[1] == b[1][0] * x + b[1][1] * y + b[1][2] * z + b[1][3];
    assert w[2] == b[2][0] * x + b[2][1] * y + b[2][2] * z + b[2][3];
  }

  /**
   Transforming by a product is transforming by each factor in turn, the right
   one first, when the right one is affine.
   */
  lemma TransformCompose(a: Matrix, b: Matrix, v: Vector<real>)
    requires Is4x4(a) && Is4x4(b) && IsAffine(b) && Complete(v)
    ensures TransformVert(MatMul(a, b), v) == TransformVert(a, TransformVert(b, v))
  {
    RowCompose(a, b, 0, v);
    RowCompose(a, b, 1, v);
    RowCompose(a, b, 2, v);
  }

  /** Scaling by 2 maps (1, 2, 3) to (2, 4, 6); scaling after translating by x + 1 maps the origin to (2, 0, 0). */
  lemma TransformExamples()
    ensures TransformVert(Scaling(2.0, 2.0, 2.0), [1.0, 2.0, 3.0]) == [2.0, 4.0, 6.0]
    ensures TransformVert(MatMul(Scaling(2.0, 2.0, 2.0), Translation(1.0, 0.0, 0.0)), [0.0, 0.0, 0.0]) == [2.0, 0.0, 0.0]
  {
    ScalingScalesVertex(2.0, 2.0, 2.0, [1.0, 2.0, 3.0]);
    TransformCompose(Scaling(2.0, 2.0, 2.0), Translation(1.0, 0.0, 0.0), [0.0, 0.0, 0.0]);
    TranslationMovesVertex(1.0, 0.0, 0.0, [0.0, 0.0, 0.0]);
    ScalingScalesVertex(2.0, 2.0, 2.0, [1.0, 0.0, 0.0]);
  }

  /**
   With a matrix set, each facet's three vertices are the matrix images of the
   stream's vertices, and its normal is the stream's vector unchanged.
   */
  lemma AffineFacets(vs: seq<Vector<real>>, end: End, m: Matrix, sem: Semantics)
    requires Is4x4(m)
    ensures var r := Group(vs, end, Some(AsTransform(m)), sem);
      forall j :: 0 <= j < |r.items| ==>
        && Complete(vs[4 * j + 1]) && Complete(vs[4 * j + 2]) && Complete(vs[4 * j + 3])
        && r.items[j] == Facet(vs[4 * j], TransformVert(m, vs[4 * j + 1]), TransformVert(m, vs[4 * j + 2]), TransformVert(m, vs[4 * j + 3]))
  {
    var t := Some(AsTransform(m));
    var r := Group(vs, end, t, sem);
    forall j | 0 <= j < |r.items|
      ensures Complete(vs[4 * j + 1]) && Complete(vs[4 * j + 2]) && Complete(vs[4 * j + 3])
      ensures r.items[j] == Facet(vs[4 * j], TransformVert(m, vs[4 * j + 1]), TransformVert(m, vs[4 * j + 2]), TransformVert(m, vs[4 * j + 3]))
    {
      assert Transformable(t, vs, j);
      assert Place(t, vs[4 * j + 1]) == TransformVert(m, vs[4 * j + 1]);
      assert Place(t, vs[4 * j + 2]) == TransformVert(m, vs[4 * j + 2]);
      assert Place(t, vs[4 * j + 3]) == TransformVert(m, vs[4 * j + 3]);
    }
  }
}

=== FILE: ascii_stl.dfy ===
/**
 `AsciiSTLFile.read_name` and `AsciiSTLFile.read_vectors` over the lines of a
 text file (each line as the file iterator yields it, newline included).

 `read_vectors` walks the file in a cycle of seven lines: the line tested for
 `facet normal` (its last three tokens are the normal), `outer loop` (skipped),
 three vertex lines (last three tokens each), `endloop` and `endfacet`
 (skipped).  None of the skipped lines is checked.
 */
module AsciiStl {
  import opened Wrappers
  import opened Text
  import opened Mesh

  /** The index of the first ' ' in `s`, if any. */
  function FirstSpace(s: string): (r: Option<nat>)
    ensures r.None? <==> ' ' !in s
    ensures r.Some? ==> r.value < |s| && s[r.value] == ' ' && ' ' !in s[..r.value]
  {
    if |s| == 0 then None
    else if s[0] == ' ' then Some(0)
    else
      var rest := FirstSpace(s[1..]);
      assert s[1..] == s[..|s|][1..];
      if rest.None? then None
      else
        assert s[..rest.value + 1] == [s[0]] + s[1..][..rest.value];
        Some(rest.value + 1)
  }

  /**
   `read_name`: `next(stlfile).split(' ', 1)[1]`.  No line at all raises
   StopIteration; a first line without a space raises IndexError; otherwise the
   name is everything after the first space, newline included.
   */
  function ReadName(lines: seq<string>): (r: Result<string, Error>)
    ensures r == Failure(StopIteration) <==> |lines| == 0
    ensures r == Failure(IndexError) <==> |lines| > 0 && ' ' !in lines[0]
    ensures r.Success? <==> |lines| > 0 && ' ' in lines[0]
    ensures r.Success? ==>
      exists p :: 0 <= p < |lines[0]| && ' ' !in lines[0][..p] && lines[0] == lines[0][..p] + " " + r.value
  {
    if |lines| == 0 then Failure(StopIteration)
    else
      match FirstSpace(lines[0])
      case None => Failure(IndexError)
      case Some(p) =>
        assert lines[0] == lines[0][..p] + " " + lines[0][p + 1..];
        Success(lines[0][p + 1..])
  }

  /** A header `solid <name>` reads back as its name followed by the newline. */
  lemma ReadNameOfHeader(name: string, rest: seq<string>)
    ensures ReadName(["solid " + name + "\n"] + rest) == Success(name + "\n")
  {
    var line := "solid " + name + "\n";
    assert line[5] == ' ' && ' ' !in line[..5];
    assert line[6..] == name + "\n";
  }

  /** The loop test of `read_vectors`: the stripped line starts with `facet normal`. */
  predicate IsFacetStart(line: string) {
    StartsWith(Strip(line), "facet normal")
  }

  /** `ws[-3:]` */
  function Last3<T>(ws: seq<T>): (r: seq<T>)
    ensures |r| == if |ws| < 3 then |ws| else 3
    ensures ws == ws[..|ws| - |r|] + r
  {
    if |ws| < 3 then ws else ws[|ws| - 3..]
  }

  /** `[float(t) for t in ts]`, failing with ValueError at the first bad token. */
  function ParseAll<F>(ts: seq<string>, parse: string -> Option<F>): (r: Option<Vector<F>>)
    ensures r.Some? <==> forall k :: 0 <= k < |ts| ==> parse(ts[k]).Some?
    ensures r.Some? ==> |r.value| == |ts| && forall k :: 0 <= k < |ts| ==> r.value[k] == parse(ts[k]).value
  {
    if |ts| == 0 then Some([])
    else
      match parse(ts[0])
      case None => None
      case Some(x) =>
        match ParseAll(ts[1..], parse)
        case None =>
          assert forall k :: 0 < k < |ts| ==> ts[1..][k - 1] == ts[k];
          None
        case Some(xs) =>
          assert forall k :: 0 < k < |ts| ==> ts[1..][k - 1] == ts[k];
          Some([x] + xs)
  }

  /**
   What the reader looks at in a line: whether its stripped text starts with
   `facet normal`, and its last three whitespace-separated tokens.
   */
  datatype LineView = LineView(facetStart: bool, tokens: seq<string>)

  /** `line.strip()` tested for `facet normal`, and `line.strip().split()[-3:]`. */
  function View(line: string): (v: LineView)
    ensures |v.tokens| <= 3
    ensures forall k :: 0 <= k < |v.tokens| ==> IsWord(v.tokens[k])
  {
    var ws := Split(Strip(line));
    var last := Last3(ws);
    assert forall k :: 0 <= k < |last| ==> last[k] == ws[|ws| - |last| + k];
    LineView(IsFacetStart(line), last)
  }

  /** What the reader looks at in each line of the file. */
  function Views(lines: seq<string>): (vs: seq<LineView>)
    ensures |vs| == |lines|
  {
    if |lines| == 0 then [] else [View(lines[0])] + Views(lines[1..])
  }

  lemma {:induction false} ViewAt(lines: seq<string>, i: nat)
    requires i < |lines|
    ensures Views(lines)[i] == View(lines[i])
  {
    if i > 0 {
      ViewAt(lines[1..], i - 1);
    }
  }

  /** Where the first tested line is: the header itself as written, the line after it as meant. */
  function FirstFacetLine(sem: Semantics): nat
  {
    if sem.AsWritten? then 0 else 1
  }

  /**
   The body of `read_vectors` from line `q` on, at step `d` of the seven-line
   cycle (0: the tested line, 1: outer loop, 2-4: vertices, 5: endloop,
   6: endfacet).  Running out of lines is a `next()` on an exhausted file.
   */
  function Scan<F>(views: seq<LineView>, q: nat, d: nat, parse: string -> Option<F>, sem: Semantics): (r: Stream<Vector<F>>)
    requires d < 7
    ensures r.items == [] || q + |r.items| <= |views|
    ensures r.end.Raised? ==> r.end.error == ValueError || r.end == Exhausted(sem)
    ensures q >= |views| ==> r == Stream([], Exhausted(sem))
    decreases |views| - q
  {
    if q >= |views| then Stream([], Exhausted(sem))
    else if d == 0 && !views[q].facetStart then Stream([], Clean)
    else if d == 1 || d == 5 || d == 6 then Scan(views, q + 1, (d + 1) % 7, parse, sem)
    else
      match ParseAll(views[q].tokens, parse)
      case None => Stream([], Raised(ValueError))
      case Some(v) => Prepend(v, Scan(views, q + 1, d + 1, parse, sem))
  }

  /**
   `AsciiSTLFile.read_vectors`: `read_name` first (its own handle on the file),
   then the seven-line cycle from the first tested line.
   */
  function ReadVectors<F>(lines: seq<string>, parse: string -> Option<F>, sem: Semantics): (r: Stream<Vector<F>>)
    ensures ReadName(lines).Failure? ==> r == Stream([], RaiseIn(ReadName(lines).error, sem))
    ensures r.end.Raised? ==> r.end.error in {ValueError, IndexError, RuntimeError}
    ensures r.end == Raised(RuntimeError) ==> sem.AsWritten?
  {
    match ReadName(lines)
    case Failure(e) =>
      assert e == StopIteration || e == IndexError;
      Stream([], RaiseIn(e, sem))
    case Success(_) => Scan(Views(lines), FirstFacetLine(sem), 0, parse, sem)
  }

  /** Once the name is read, the reader scans the lines from the first one it tests. */
  lemma ReadVectorsAfterName<F>(lines: seq<string>, parse: string -> Option<F>, sem: Semantics)
    requires ReadName(lines).Success?
    ensures ReadVectors(lines, parse, sem) == Scan(Views(lines), FirstFacetLine(sem), 0, parse, sem)
  {
  }

  /** A well-formed seven-line facet block at line `q`: the tested line and the vertex lines parse. */
  predicate BlockAt<F>(views: seq<LineView>, q: nat, parse: string -> Option<F>) {
    && q + 7 <= |views|
    && views[q].facetStart
    && ParseAll(views[q].tokens, parse).Some?
    && ParseAll(views[q + 2].tokens, parse).Some?
    && ParseAll(views[q + 3].tokens, parse).Some?
    && ParseAll(views[q + 4].tokens, parse).Some?
  }

  /** `b` consecutive well-formed blocks starting at line `q`. */
  predicate Blocks<F>(views: seq<LineView>, q: nat, b: nat, parse: string -> Option<F>)
    decreases b
  {
    b == 0 || (BlockAt(views, q, parse) && Blocks(views, q + 7, b - 1, parse))
  }

  /** The four vectors of a block: its normal line and its three vertex lines. */
  function BlockVectors<F>(views: seq<LineView>, q: nat, parse: string -> Option<F>): (vs: seq<Vector<F>>)
    requires BlockAt(views, q, parse)
    ensures |vs| == 4
  {
    [ParseAll(views[q].tokens, parse).value, ParseAll(views[q + 2].tokens, parse).value,
     ParseAll(views[q + 3].tokens, parse).value, ParseAll(views[q + 4].tokens, parse).value]
  }

  function BlocksVectors<F>(views: seq<LineView>, q: nat, b: nat, parse: string -> Option<F>): (vs: seq<Vector<F>>)
    requires Blocks(views, q, b, parse)
    ensures |vs| == 4 * b
    decreases b
  {
    if b == 0 then [] else BlockVectors(views, q, parse) + BlocksVectors(views, q + 7, b - 1, parse)
  }

  /** One block yields its four vectors and leaves the reader at the block's next line. */
  lemma BlockStep<F>(views: seq<LineView>, q: nat, parse: string -> Option<F>, sem: Semantics)
    requires BlockAt(views, q, parse)
    ensures Scan(views, q, 0, parse, sem) == Append(BlockVectors(views, q, parse), Scan(views, q + 7, 0, parse, sem))
  {
    var vs := BlockVectors(views, q, parse);
    var s7 := Scan(views, q + 7, 0, parse, sem);
    var s6 := Scan(views, q + 6, 6, parse, sem);
    var s5 := Scan(views, q + 5, 5, parse, sem);
    var s4 := Scan(views, q + 4, 4, parse, sem);
    var s3 := Scan(views, q + 3, 3, parse, sem);
    var s2 := Scan(views, q + 2, 2, parse, sem);
    var s1 := Scan(views, q + 1, 1, parse, sem);
    var s0 := Scan(views, q, 0, parse, sem);
    assert s6 == s7;
    assert s5 == s6;
    assert s4 == Prepend(vs[3], s5);
    assert s3 == Prepend(vs[2], s4);
    assert s2 == Prepend(vs[1], s3);
    assert s1 == s2;
    assert s0 == Prepend(vs[0], s1);
    assert s0.items == vs + s7.items;
  }

  /** Reading from line `q` yields the vectors of the `b` blocks there, then continues after them. */
  ghost predicate ReadsBlocks<F>(views: seq<LineView>, q: nat, b: nat, parse: string -> Option<F>, sem: Semantics)
    requires Blocks(views, q, b, parse)
  {
    Scan(views, q, 0, parse, sem) == Append(BlocksVectors(views, q, b, parse), Scan(views, q + 7 * b, 0, parse, sem))
  }

  /** A block followed by `b - 1` blocks that read as blocks reads as `b` blocks. */
  lemma JoinBlocks<F>(views: seq<LineView>, q: nat, b: nat, parse: string -> Option<F>, sem: Semantics)
    requires b > 0 && Blocks(views, q, b, parse)
    requires ReadsBlocks(views, q + 7, b - 1, parse, sem)
    ensures ReadsBlocks(views, q, b, parse, sem)
  {
    var tail := Scan(views, q + 7 * b, 0, parse, sem);
    var front, back := BlockVectors(views, q, parse), BlocksVectors(views, q + 7, b - 1, parse);
    BlockStep(views, q, parse, sem);
    assert q + 7 + 7 * (b - 1) == q + 7 * b;
    assert front + (back + tail.items) == (front + back) + tail.items;
  }

  /** Consecutive well-formed blocks yield their vectors in order. */
  lemma {:induction false} ReadBlocks<F>(views: seq<LineView>, q: nat, b: nat, parse: string -> Option<F>, sem: Semantics)
    requires Blocks(views, q, b, parse)
    ensures ReadsBlocks(views, q, b, parse, sem)
    decreases b
  {
    if b > 0 {
      ReadBlocks(views, q + 7, b - 1, parse, sem);
      JoinBlocks(views, q, b, parse, sem);
    } else {
      assert [] + Scan(views, q, 0, parse, sem).items == Scan(views, q, 0, parse, sem).items;
    }
  }

  /** A tested line that fails the `facet normal` test ends the reading normally. */
  lemma ScanStops<F>(views: seq<LineView>, q: nat, parse: string -> Option<F>, sem: Semantics)
    requires q < |views| && !views[q].facetStart
    ensures Scan(views, q, 0, parse, sem) == Stream([], Clean)
  {
  }

  /** A line that begins with `solid` never passes the `facet normal` test. */
  lemma SolidIsNotFacetStart(line: string)
    requires StartsWith(line, "solid")
    ensures !IsFacetStart(line)
  {
    assert !IsSpace(line[0]);
    assert StripLeft(line) == line;
    var s := Strip(line);
    assert |s| == 0 || s[0] == 's';
  }

  /**
   As written, the tested first line is the header, so a file whose first line
   starts with `solid` yields no vectors at all.
   */
  lemma HeaderReadAsFacetLine<F>(lines: seq<string>, parse: string -> Option<F>)
    requires |lines| > 0 && StartsWith(lines[0], "solid")
    ensures ReadVectors(lines, parse, AsWritten).items == []
    ensures ReadVectors(lines, parse, AsWritten).end.Clean? <==> ' ' in lines[0]
  {
    SolidIsNotFacetStart(lines[0]);
    ViewAt(lines, 0);
  }
}

=== FILE: binary_stl.dfy ===
/**
 `BinarySTLFile.read_vectors`: skip the 80-byte header, read the facet count as
 a little-endian unsigned 32-bit integer, then read four 12-byte vectors per
 50-byte record, skipping the 2 attribute bytes.
 */
module BinaryStl {
  import opened Mesh

  // Layout (little-endian count): 80-byte header, 4-byte facet count, then
  // 50-byte records of four 12-byte vectors and 2 attribute bytes.

  /** `unpack('<I', w)[0]` */
  function LeU32(w: seq<byte>): (n: nat)
    requires |w| == 4
    ensures n < 0x1_0000_0000
  {
    var b0, b1, b2, b3: nat := w[0], w[1], w[2], w[3];
    b0 + 256 * (b1 + 256 * (b2 + 256 * b3))
  }

  /** `pack('<I', n)`: the four bytes of `n`, least significant first. */
  function LeBytes(n: nat): (w: seq<byte>)
    requires n < 0x1_0000_0000
    ensures |w| == 4
  {
    var q1 := n / 256;
    var q2 := q1 / 256;
    DivBelow(n, 0x100_0000);
    DivBelow(q1, 0x1_0000);
    DivBelow(q2, 0x100);
    [n % 256, q1 % 256, q2 % 256, q2 / 256]
  }

  /** One base-256 digit off the bottom of `x`. */
  lemma DivMod256(x: nat, lo: nat, hi: nat)
    requires lo < 256 && x == lo + 256 * hi
    ensures x % 256 == lo && x / 256 == hi
  {
  }

  lemma DivBelow(x: nat, k: nat)
    requires x < 256 * k
    ensures x / 256 < k
  {
  }

  /** Decoding the bytes of a count gives the count back. */
  lemma LeU32OfLeBytes(n: nat)
    requires n < 0x1_0000_0000
    ensures LeU32(LeBytes(n)) == n
  {
    var q1 := n / 256;
    var q2 := q1 / 256;
    assert n == n % 256 + 256 * q1;
    assert q1 == q1 % 256 + 256 * q2;
    assert q2 == q2 % 256 + 256 * (q2 / 256);
    assert LeBytes(n) == [n % 256, q1 % 256, q2 % 256, q2 / 256];
  }

  /** Every four bytes are the encoding of the count they decode to. */
  lemma LeBytesOfLeU32(w: seq<byte>)
    requires |w| == 4
    ensures LeBytes(LeU32(w)) == w
  {
    var b0, b1, b2, b3: nat := w[0], w[1], w[2], w[3];
    var n := LeU32(w);
    DivMod256(n, b0, b1 + 256 * (b2 + 256 * b3));
    DivMod256(b1 + 256 * (b2 + 256 * b3), b1, b2 + 256 * b3);
    DivMod256(b2 + 256 * b3, b2, b3);
    assert LeBytes(n) == [b0, b1, b2, b3];
  }

  /** The declared facet count: bytes 80..83 read as little-endian. */
  function Count(bytes: seq<byte>): nat
    requires |bytes| >= 84
  {
    LeU32(bytes[80..84])
  }

  /** The four bytes `unpack` hands to the host's float decoder, least significant first. */
  function NativeWord(w: seq<byte>, host: ByteOrder): seq<byte>
    requires |w| == 4
  {
    if host == LittleEndian then w else [w[3], w[2], w[1], w[0]]
  }

  /** One native-order float from the 4 bytes at offset `p`. */
  function DecodeFloat<F>(bytes: seq<byte>, p: nat, num: Numerics<F>): F
    requires p + 4 <= |bytes|
  {
    num.float32(NativeWord([bytes[p], bytes[p + 1], bytes[p + 2], bytes[p + 3]], num.host))
  }

  /** `unpack('3f', bytes[p:p+12])`: three native-order floats. */
  function DecodeVector<F>(bytes: seq<byte>, p: nat, num: Numerics<F>): (v: Vector<F>)
    requires p + 12 <= |bytes|
  {
    [DecodeFloat(bytes, p, num), DecodeFloat(bytes, p + 4, num), DecodeFloat(bytes, p + 8, num)]
  }

  /** Byte offset of vector `j` of record `k`. */
  function Offset(k: nat, j: nat): nat {
    84 + 50 * k + 12 * j
  }

  /** The record of the vector after vector `j` of record `k`. */
  function NextRecord(k: nat, j: nat): nat {
    if j == 3 then k + 1 else k
  }

  /** The slot of the vector after the one in slot `j`. */
  function NextSlot(j: nat): nat {
    if j == 3 then 0 else j + 1
  }

  /**
   The vectors from vector `j` of record `k` on, for a file declaring `n`
   facets: each `read(12)` that comes back short raises `struct.error`.
   */
  function ReadFrom<F>(bytes: seq<byte>, n: nat, k: nat, j: nat, num: Numerics<F>): (r: Stream<Vector<F>>)
    requires k <= n && j < 4 && (k == n ==> j == 0)
    ensures |r.items| <= 4 * (n - k) - j
    ensures r.end == Clean <==> |r.items| == 4 * (n - k) - j
    ensures r.end.Raised? ==> r.end.error == StructError
    decreases n - k, 4 - j
  {
    if k == n then Stream([], Clean)
    else if Offset(k, j) + 12 > |bytes| then Stream([], Raised(StructError))
    else
      Prepend(DecodeVector(bytes, Offset(k, j), num), ReadFrom(bytes, n, NextRecord(k, j), NextSlot(j), num))
  }

  /** `v` is the vector stored in the 12 bytes at offset `p`. */
  ghost predicate StoredAt<F>(bytes: seq<byte>, p: nat, v: Vector<F>, num: Numerics<F>) {
    p + 12 <= |bytes| && v == DecodeVector(bytes, p, num)
  }

  /** Byte offset of vector `i` of the stream: slot `i % 4` of record `i / 4`. */
  function VectorOffset(i: nat): nat
  {
    Offset(i / 4, i % 4)
  }

  /**
   The vectors follow one another 12 bytes apart, and 14 bytes apart where a
   record starts, the two attribute bytes lying in between; the first one
   follows the count.
   */
  lemma VectorOffsetStep(i: nat)
    ensures VectorOffset(0) == 84
    ensures VectorOffset(i + 1) == VectorOffset(i) + (if (i + 1) % 4 == 0 then 14 else 12)
  {
    if (i + 1) % 4 == 0 {
      assert (i + 1) / 4 == i / 4 + 1 && i % 4 == 3;
    } else {
      assert (i + 1) / 4 == i / 4 && (i + 1) % 4 == i % 4 + 1;
    }
  }

  /** The vectors of record `k` start at byte 84 + 50k, 12 bytes apart. */
  lemma RecordLayout(k: nat, j: nat)
    requires j < 4
    ensures VectorOffset(4 * k + j) == Offset(k, j)
  {
    assert (4 * k + j) / 4 == k && (4 * k + j) % 4 == j;
  }

  /** The stream index of the vector after vector `j` of record `k`. */
  lemma NextIndex(k: nat, j: nat)
    requires j < 4
    ensures 4 * NextRecord(k, j) + NextSlot(j) == 4 * k + j + 1
  {
  }

  /** A successful read puts its vector in front of the rest of the stream. */
  lemma ReadFromHead<F>(bytes: seq<byte>, n: nat, k: nat, j: nat, num: Numerics<F>)
    requires k < n && j < 4 && Offset(k, j) + 12 <= |bytes|
    ensures ReadFrom(bytes, n, k, j, num).items
      == [DecodeVector(bytes, Offset(k, j), num)] + ReadFrom(bytes, n, NextRecord(k, j), NextSlot(j), num).items
  {
  }

  /**
   Vector `m` read from record `k`, slot `j` on is the one stored in slot `s`
   of record `r`, where `4r + s = 4k + j + m`.
   */
  lemma {:induction false} ReadFromAt<F>(bytes: seq<byte>, n: nat, k: nat, j: nat, num: Numerics<F>, m: nat, r: nat, s: nat)
    requires k <= n && j < 4 && (k == n ==> j == 0)
    requires m < |ReadFrom(bytes, n, k, j, num).items|
    requires s < 4 && 4 * r + s == 4 * k + j + m
    ensures StoredAt(bytes, Offset(r, s), ReadFrom(bytes, n, k, j, num).items[m], num)
    decreases m
  {
    var items := ReadFrom(bytes, n, k, j, num).items;
    assert k < n && Offset(k, j) + 12 <= |bytes|;
    var rest := ReadFrom(bytes, n, NextRecord(k, j), NextSlot(j), num).items;
    ReadFromHead(bytes, n, k, j, num);
    if m == 0 {
      assert r == k && s == j;
    } else {
      assert items[m] == rest[m - 1];
      NextIndex(k, j);
      ReadFromAt(bytes, n, NextRecord(k, j), NextSlot(j), num, m - 1, r, s);
    }
  }

  /** A stream from stream index `i` on fails only at a vector whose 12 bytes run past the end. */
  predicate FailsPastEnd<F>(bytes: seq<byte>, i: nat, s: Stream<Vector<F>>) {
    s.end.Raised? ==> VectorOffset(i + |s.items|) + 12 > |bytes|
  }

  /** A vector in front of a stream from index `i + 1` on makes a stream from index `i` on. */
  lemma FailsPastEndPrepend<F>(bytes: seq<byte>, i: nat, v: Vector<F>, s: Stream<Vector<F>>)
    requires FailsPastEnd(bytes, i + 1, s)
    ensures FailsPastEnd(bytes, i, Prepend(v, s))
  {
    assert i + |Prepend(v, s).items| == i + 1 + |s.items|;
  }

  /** A read from record `k`, slot `j` on fails exactly at a vector whose 12 bytes run past the end. */
  lemma {:induction false} ReadFromFailure<F>(bytes: seq<byte>, n: nat, k: nat, j: nat, num: Numerics<F>)
    requires k <= n && j < 4 && (k == n ==> j == 0)
    ensures FailsPastEnd(bytes, 4 * k + j, ReadFrom(bytes, n, k, j, num))
    decreases n - k, 4 - j
  {
    if k < n {
      var r := ReadFrom(bytes, n, k, j, num);
      if Offset(k, j) + 12 <= |bytes| {
        var rest := ReadFrom(bytes, n, NextRecord(k, j), NextSlot(j), num);
        ReadFromFailure(bytes, n, NextRecord(k, j), NextSlot(j), num);
        NextIndex(k, j);
        FailsPastEndPrepend(bytes, 4 * k + j, DecodeVector(bytes, Offset(k, j), num), rest);
      } else {
        RecordLayout(k, j);
        assert r == Stream([], Raised(StructError));
        assert 4 * k + j + |r.items| == 4 * k + j;
      }
    }
  }

  /** The declared facet count, when the file is long enough to hold it. */
  function DeclaredCount(bytes: seq<byte>): nat
  {
    if |bytes| < 84 then 0 else Count(bytes)
  }

  /**
   `BinarySTLFile.read_vectors` over the bytes of the file: a short count raises
   `struct.error`; otherwise four vectors per declared facet, unless a read of a
   vector comes back short.
   */
  function ReadVectors<F>(bytes: seq<byte>, num: Numerics<F>): (r: Stream<Vector<F>>)
    ensures |bytes| < 84 ==> r == Stream([], Raised(StructError))
    ensures |r.items| <= 4 * DeclaredCount(bytes)
    ensures r.end == Clean ==> |bytes| >= 84 && |r.items| == 4 * Count(bytes)
    ensures r.end.Raised? ==> r.end.error == StructError
  {
    if |bytes| < 84 then Stream([], Raised(StructError))
    else ReadFrom(bytes, Count(bytes), 0, 0, num)
  }

  /** Vector `i` of the stream is the 12 bytes at offset 84 + 50(i / 4) + 12(i % 4). */
  lemma ReadVectorsLayout<F>(bytes: seq<byte>, num: Numerics<F>)
    ensures forall i :: 0 <= i < |ReadVectors(bytes, num).items| ==>
      StoredAt(bytes, VectorOffset(i), ReadVectors(bytes, num).items[i], num)
  {
    if |bytes| >= 84 {
      var n := Count(bytes);
      var items := ReadFrom(bytes, n, 0, 0, num).items;
      forall i | 0 <= i < |items|
        ensures StoredAt(bytes, VectorOffset(i), items[i], num)
      {
        ReadFromAt(bytes, n, 0, 0, num, i, i / 4, i % 4);
      }
    }
  }

  /** A read fails only at a vector whose 12 bytes run past the end of the file. */
  lemma ReadVectorsFailure<F>(bytes: seq<byte>, num: Numerics<F>)
    ensures ReadVectors(bytes, num).end.Raised? && |bytes| >= 84 ==>
      VectorOffset(|ReadVectors(bytes, num).items|) + 12 > |bytes|
  {
    if |bytes| >= 84 {
      ReadFromFailure(bytes, Count(bytes), 0, 0, num);
    }
  }

  lemma LastVectorEnd(n: nat, m: nat)
    requires m < 4 * n
    ensures VectorOffset(m) + 12 <= 82 + 50 * n
    ensures m == 4 * n - 1 ==> VectorOffset(m) + 12 == 82 + 50 * n
  {
    var k, j := m / 4, m % 4;
    assert m == 4 * k + j && k <= n - 1;
    RecordLayout(k, j);
    if m == 4 * n - 1 {
      assert k == n - 1 && j == 3;
    }
  }

  /**
   The stream ends normally exactly when the file holds the header, the count and
   every declared record, where the last record's two attribute bytes may be
   missing; otherwise it ends with `struct.error`.
   */
  lemma ReadVectorsCleanIff<F>(bytes: seq<byte>, num: Numerics<F>)
    ensures ReadVectors(bytes, num).end == Clean <==>
      |bytes| >= 84 && (Count(bytes) == 0 || |bytes| >= 82 + 50 * Count(bytes))
  {
    var r := ReadVectors(bytes, num);
    ReadVectorsLayout(bytes, num);
    ReadVectorsFailure(bytes, num);
    if |bytes| >= 84 {
      var n := Count(bytes);
      if r.end == Clean && n > 0 {
        LastVectorEnd(n, 4 * n - 1);
        assert StoredAt(bytes, VectorOffset(4 * n - 1), r.items[4 * n - 1], num);
      }
      if n > 0 && |bytes| >= 82 + 50 * n && r.end.Raised? {
        LastVectorEnd(n, |r.items|);
      }
    }
  }

  /** Bytes after the last record do not change what is read. */
  lemma {:induction false} ReadFromIgnoresTrailing<F>(bytes: seq<byte>, extra: seq<byte>, n: nat, k: nat, j: nat, num: Numerics<F>)
    requires k <= n && j < 4 && (k == n ==> j == 0)
    requires n == 0 || |bytes| >= 82 + 50 * n
    ensures ReadFrom(bytes + extra, n, k, j, num) == ReadFrom(bytes, n, k, j, num)
    decreases n - k, 4 - j
  {
    if k < n {
      var p := Offset(k, j);
      assert p + 12 <= 84 + 50 * (n - 1) + 48;
      assert DecodeVector(bytes + extra, p, num) == DecodeVector(bytes, p, num);
      ReadFromIgnoresTrailing(bytes, extra, n, NextRecord(k, j), NextSlot(j), num);
    }
  }

  /**
   What the reader yields, float by float: component `c` of vector `i` is the
   host's float decoder applied to the 4 bytes at offset VectorOffset(i) + 4c,
   as stored on a little-endian host and reversed on a big-endian one.
   */
  lemma ReadVectorsFloats<F>(bytes: seq<byte>, num: Numerics<F>)
    ensures var items := ReadVectors(bytes, num).items;
      forall i, c :: 0 <= i < |items| && 0 <= c < 3 ==>
        && |items[i]| == 3
        && VectorOffset(i) + 4 * c + 4 <= |bytes|
        && items[i][c] == num.float32(
             if num.host == LittleEndian then bytes[VectorOffset(i) + 4 * c..VectorOffset(i) + 4 * c + 4]
             else [bytes[VectorOffset(i) + 4 * c + 3], bytes[VectorOffset(i) + 4 * c + 2],
                   bytes[VectorOffset(i) + 4 * c + 1], bytes[VectorOffset(i) + 4 * c]])
  {
    var items := ReadVectors(bytes, num).items;
    ReadVectorsLayout(bytes, num);
    forall i, c | 0 <= i < |items| && 0 <= c < 3
      ensures |items[i]| == 3 && VectorOffset(i) + 4 * c + 4 <= |bytes|
      ensures items[i][c] == num.float32(
             if num.host == LittleEndian then bytes[VectorOffset(i) + 4 * c..VectorOffset(i) + 4 * c + 4]
             else [bytes[VectorOffset(i) + 4 * c + 3], bytes[VectorOffset(i) + 4 * c + 2],
                   bytes[VectorOffset(i) + 4 * c + 1], bytes[VectorOffset(i) + 4 * c]])
    {
      var p := VectorOffset(i) + 4 * c;
      assert StoredAt(bytes, VectorOffset(i), items[i], num);
      assert items[i][c] == DecodeFloat(bytes, p, num);
      assert bytes[p..p + 4] == [bytes[p], bytes[p + 1], bytes[p + 2], bytes[p + 3]];
    }
  }

  /**
   The count is read little-endian whatever the host: the host's byte order and
   float decoder change the values of the floats, never how many vectors are
   read or how the reading ends.
   */
  lemma ReadVectorsShapeIgnoresHost<F>(bytes: seq<byte>, num: Numerics<F>, other: Numerics<F>)
    ensures |ReadVectors(bytes, num).items| == |ReadVectors(bytes, other).items|
    ensures ReadVectors(bytes, num).end == ReadVectors(bytes, other).end
  {
    ShorterStreamFits(bytes, num, other);
    ShorterStreamFits(bytes, other, num);
    ReadVectorsCleanIff(bytes, num);
    ReadVectorsCleanIff(bytes, other);
  }

  /** A stream read with any numerics is no longer than one read with any other. */
  lemma ShorterStreamFits<F>(bytes: seq<byte>, num: Numerics<F>, other: Numerics<F>)
    ensures |ReadVectors(bytes, num).items| <= |ReadVectors(bytes, other).items|
  {
    var a, b := ReadVectors(bytes, num), ReadVectors(bytes, other);
    ReadVectorsLayout(bytes, num);
    ReadVectorsFailure(bytes, other);
    assert forall i :: 0 <= i < |a.items| ==> VectorOffset(i) + 12 <= |bytes|;
  }

  /** Trailing bytes after a complete file are ignored. */
  lemma TrailingBytesIgnored<F>(bytes: seq<byte>, extra: seq<byte>, num: Numerics<F>)
    requires ReadVectors(bytes, num).end == Clean
    ensures ReadVectors(bytes + extra, num) == ReadVectors(bytes, num)
  {
    ReadVectorsCleanIff(bytes, num);
    assert (bytes + extra)[80..84] == bytes[80..84];
    ReadFromIgnoresTrailing(bytes, extra, Count(bytes), 0, 0, num);
  }

  /** One successful read: the vector joins the items, the rest starts at the next slot. */
  lemma ReadFromStep<F>(bytes: seq<byte>, n: nat, k: nat, j: nat, num: Numerics<F>, items: seq<Vector<F>>)
    requires k < n && j < 4 && Offset(k, j) + 12 <= |bytes|
    ensures Append(items, ReadFrom(bytes, n, k, j, num)) ==
      Append(items + [DecodeVector(bytes, Offset(k, j), num)], ReadFrom(bytes, n, NextRecord(k, j), NextSlot(j), num))
  {
    var v := DecodeVector(bytes, Offset(k, j), num);
    var rest := ReadFrom(bytes, n, NextRecord(k, j), NextSlot(j), num);
    assert ReadFrom(bytes, n, k, j, num) == Prepend(v, rest);
    assert items + ([v] + rest.items) == (items + [v]) + rest.items;
  }

  /**
   The body of the record loop of `read_vectors`: four `read(12)` calls from
   file position `pos`, stopping at the first that comes back short.
   */
  method ReadRecord<F>(bytes: seq<byte>, n: nat, k: nat, pos0: nat, num: Numerics<F>, items0: seq<Vector<F>>)
    returns (items: seq<Vector<F>>, pos: nat, ok: bool)
    requires k < n && pos0 == Offset(k, 0)
    ensures ok ==> pos == Offset(k, 4) && Append(items0, ReadFrom(bytes, n, k, 0, num)) == Append(items, ReadFrom(bytes, n, k + 1, 0, num))
    ensures !ok ==> Append(items0, ReadFrom(bytes, n, k, 0, num)) == Stream(items, Raised(StructError))
  {
    items, pos := items0, pos0;
    var j := 0;
    while j < 4
      invariant 0 <= j <= 4 && pos == Offset(k, j)
      invariant j < 4 ==> Append(items0, ReadFrom(bytes, n, k, 0, num)) == Append(items, ReadFrom(bytes, n, k, j, num))
      invariant j == 4 ==> Append(items0, ReadFrom(bytes, n, k, 0, num)) == Append(items, ReadFrom(bytes, n, k + 1, 0, num))
    {
      if pos + 12 > |bytes| {
        assert items + [] == items;
        return items, pos, false;
      }
      ReadFromStep(bytes, n, k, j, num, items);
      items := items + [DecodeVector(bytes, pos, num)];
      pos := pos + 12;
      j := j + 1;
    }
    return items, pos, true;
  }

  /**
   The loop of `read_vectors` with an explicit file position: seek to 80, read
   the count, then per record read four vectors and seek two bytes forward.
   */
  method ReadVectorsLoop<F>(bytes: seq<byte>, num: Numerics<F>) returns (items: seq<Vector<F>>, end: End)
    ensures Stream(items, end) == ReadVectors(bytes, num)
  {
    var pos := 80;
    if pos + 4 > |bytes| {
      return [], Raised(StructError);
    }
    var length := LeU32(bytes[pos..pos + 4]);
    pos := pos + 4;
    items := [];
    var k := 0;
    while k < length
      invariant 0 <= k <= length
      invariant pos == Offset(k, 0)
      invariant ReadVectors(bytes, num) == Append(items, ReadFrom(bytes, length, k, 0, num))
    {
      var ok;
      items, pos, ok := ReadRecord(bytes, length, k, pos, num, items);
      if !ok {
        return items, Raised(StructError);
      }
      pos := pos + 2;
      k := k + 1;
    }
    assert items + [] == items;
    return items, Clean;
  }
}

=== FILE: mesh.dfy ===
/**
 The data model shared by the readers and writers of `stl-to-obj.py`: vectors as
 the readers yield them, facets, the exceptions that can end a conversion, the
 lazily produced streams, and `_STLFile.__iter__`, which groups the vector
 stream into facets and maps the three vertices through the optional transform.
 */
module Mesh {
  import opened Wrappers

  /** A byte of a binary file. */
  type byte = b: int | 0 <= b < 256

  /** The byte order of the machine running the converter. */
  datatype ByteOrder = LittleEndian | BigEndian

  /**
   A vector as a reader yields it: a Python tuple (binary) or list (ASCII) of
   floats.  Binary vectors always have three components; an ASCII line yields
   between zero and three, because it takes the last three tokens of the line.
   */
  type Vector<F> = seq<F>

  predicate Complete<F>(v: Vector<F>) {
    |v| >= 3
  }

  /** One facet as `__iter__` yields it: `(n, v1, v2, v3)`. */
  datatype Facet<F> = Facet(normal: Vector<F>, v1: Vector<F>, v2: Vector<F>, v3: Vector<F>)

  /** The Python exceptions a conversion can raise. */
  datatype Error =
    | StructError     // `struct.unpack` given too few bytes
    | ValueError      // `float()` of a token that is not a number
    | IndexError      // a missing list element (`split(' ', 1)[1]`, a short vector)
    | RuntimeError    // a StopIteration that escaped a generator (PEP 479)
    | StopIteration   // `next()` on an exhausted file or iterator

  /**
   Which Python the code runs under.  `AsWritten` is the code as it behaves on
   Python 3.7 and later; `Intended` is the behaviour its authors evidently meant:
   a generator that runs out of input simply ends, and the ASCII reader starts
   after the header line.  The two switches move together, so the code as
   written under Python 3.6 (the header tested, a clean end) is not expressible.
   */
  datatype Semantics = AsWritten | Intended

  /** How a lazily produced sequence ended: normally, or by an exception. */
  datatype End = Clean | Raised(error: Error)

  /** A finite lazily produced sequence: the items produced, then how it ended. */
  datatype Stream<T> = Stream(items: seq<T>, end: End)

  /** What happens when a generator body lets a StopIteration escape. */
  function Exhausted(sem: Semantics): End
  {
    if sem.AsWritten? then Raised(RuntimeError) else Clean
  }

  /** How a generator ends when its body raises `e`. */
  function RaiseIn(e: Error, sem: Semantics): End
  {
    if e == StopIteration then Exhausted(sem) else Raised(e)
  }

  function Prepend<T>(x: T, s: Stream<T>): Stream<T> {
    Stream([x] + s.items, s.end)
  }

  /** The items `xs` followed by the stream `s`. */
  function Append<T>(xs: seq<T>, s: Stream<T>): Stream<T> {
    Stream(xs + s.items, s.end)
  }

  /** `transform_vert`: maps one vertex (only vertices of length three are given to it). */
  type Transform<!F> = Vector<F> -> Vector<F>

  /** Where a vertex ends up: through the transformation if one is set. */
  function Place<F>(t: Option<Transform<F>>, v: Vector<F>): Vector<F> {
    match t
    case None => v
    case Some(f) => f(v)
  }

  /** No transformation, or one that maps every complete vertex to a complete one. */
  ghost predicate KeepsComplete<F(!new)>(t: Option<Transform<F>>) {
    forall v: Vector<F> :: Complete(v) ==> Complete(Place(t, v))
  }

  /** The numeric collaborators the converter calls but this model does not define. */
  datatype Numerics<!F> = Numerics(
    parse: string -> Option<F>,     // `float(token)`, which may raise ValueError
    format: F -> string,            // `'{:6f}'.format(x)`
    float32: seq<byte> -> F,        // IEEE-754 single from 4 bytes, least significant first
    host: ByteOrder)                // the byte order `unpack('3f', …)` uses

  /** The vertices of a group of four vectors are complete enough for the transform. */
  predicate Transformable<F>(t: Option<Transform<F>>, vs: seq<Vector<F>>, j: nat)
    requires 4 * j + 3 < |vs|
  {
    t.None? || (Complete(vs[4 * j + 1]) && Complete(vs[4 * j + 2]) && Complete(vs[4 * j + 3]))
  }

  /**
   `_STLFile.__iter__` over the vector stream `Stream(vs, end)`: pulls the normal
   and three vertices of each facet in turn, maps only the vertices through the
   transformation, and ends when a pull fails.
   */
  function Group<F>(vs: seq<Vector<F>>, end: End, t: Option<Transform<F>>, sem: Semantics): (r: Stream<Facet<F>>)
    ensures |r.items| <= |vs| / 4
    ensures forall j :: 0 <= j < |r.items| ==>
      && Transformable(t, vs, j)
      && r.items[j] == FacetAt(vs, t, j)
    ensures |r.items| == |vs| / 4 ==> r.end == (if end.Raised? then end else Exhausted(sem))
    ensures |r.items| < |vs| / 4 ==> !Transformable(t, vs, |r.items|) && r.end == Raised(IndexError)
    decreases |vs|
  {
    if |vs| < 4 then Stream([], if end.Raised? then end else Exhausted(sem))
    else if !Transformable(t, vs, 0) then Stream([], Raised(IndexError))
    else
      var rest := Group(vs[4..], end, t, sem);
      ConsGroup(vs, t, rest.items);
      Prepend(FacetAt(vs, t, 0), rest)
  }

  /** Facet `j` of the vector stream: vector `4j` as the normal, the next three through the transformation. */
  function FacetAt<F>(vs: seq<Vector<F>>, t: Option<Transform<F>>, j: nat): Facet<F>
    requires 4 * j + 3 < |vs|
  {
    Facet(vs[4 * j], Place(t, vs[4 * j + 1]), Place(t, vs[4 * j + 2]), Place(t, vs[4 * j + 3]))
  }

  /** Group `j` of the vectors after the first four is group `j + 1` of all of them. */
  lemma ShiftGroup<F>(vs: seq<Vector<F>>, t: Option<Transform<F>>)
    requires |vs| >= 4
    ensures |vs[4..]| / 4 == |vs| / 4 - 1
    ensures forall j :: 0 <= j && 4 * j + 3 < |vs| - 4 ==>
      && Transformable(t, vs[4..], j) == Transformable(t, vs, j + 1)
      && FacetAt(vs[4..], t, j) == FacetAt(vs, t, j + 1)
  {
  }

  /** The facets of the vectors after the first four, behind the first facet, are the facets of all of them. */
  lemma ConsGroup<F>(vs: seq<Vector<F>>, t: Option<Transform<F>>, rest: seq<Facet<F>>)
    requires |vs| >= 4 && Transformable(t, vs, 0)
    requires |rest| <= |vs[4..]| / 4
    requires forall j :: 0 <= j < |rest| ==> Transformable(t, vs[4..], j) && rest[j] == FacetAt(vs[4..], t, j)
    ensures forall j :: 0 <= j < 1 + |rest| ==> Transformable(t, vs, j) && ([FacetAt(vs, t, 0)] + rest)[j] == FacetAt(vs, t, j)
  {
    ShiftGroup(vs, t);
    var items := [FacetAt(vs, t, 0)] + rest;
    forall j | 0 < j < 1 + |rest|
      ensures Transformable(t, vs, j) && items[j] == FacetAt(vs, t, j)
    {
      assert items[j] == rest[j - 1];
      assert Transformable(t, vs[4..], j - 1);
    }
  }

  /**
   A stream of complete vectors is grouped whole, and under a transformation
   that keeps vertices complete every vector of every facet is complete.
   */
  lemma GroupComplete<F(!new)>(vs: seq<Vector<F>>, end: End, t: Option<Transform<F>>, sem: Semantics)
    requires forall i :: 0 <= i < |vs| ==> Complete(vs[i])
    ensures |Group(vs, end, t, sem).items| == |vs| / 4
    ensures KeepsComplete(t) ==> forall j :: 0 <= j < |Group(vs, end, t, sem).items| ==>
      var f := Group(vs, end, t, sem).items[j];
      Complete(f.normal) && Complete(f.v1) && Complete(f.v2) && Complete(f.v3)
  {
    var r := Group(vs, end, t, sem);
    assert forall j :: 0 <= j < |vs| / 4 ==> Transformable(t, vs, j);
    if KeepsComplete(t) {
      forall j | 0 <= j < |r.items|
        ensures Complete(r.items[j].normal) && Complete(r.items[j].v1) && Complete(r.items[j].v2) && Complete(r.items[j].v3)
      {
        assert r.items[j] == FacetAt(vs, t, j);
        assert Complete(vs[4 * j + 1]) && Complete(vs[4 * j + 2]) && Complete(vs[4 * j + 3]);
      }
    }
  }

  /** The vector stream a sequence of facets comes from: normal, v1, v2, v3 per facet. */
  function Flatten<F>(fs: seq<Facet<F>>): (vs: seq<Vector<F>>)
  {
    if |fs| == 0 then [] else [fs[0].normal, fs[0].v1, fs[0].v2, fs[0].v3] + Flatten(fs[1..])
  }

  lemma {:induction false} FlattenIndex<F>(fs: seq<Facet<F>>)
    ensures |Flatten(fs)| == 4 * |fs|
    ensures forall j :: 0 <= j < |fs| ==>
      && Flatten(fs)[4 * j] == fs[j].normal
      && Flatten(fs)[4 * j + 1] == fs[j].v1
      && Flatten(fs)[4 * j + 2] == fs[j].v2
      && Flatten(fs)[4 * j + 3] == fs[j].v3
    decreases |fs|
  {
    if |fs| > 0 {
      var head := [fs[0].normal, fs[0].v1, fs[0].v2, fs[0].v3];
      var rest := Flatten(fs[1..]);
      FlattenIndex(fs[1..]);
      assert Flatten(fs) == head + rest;
      forall j | 1 <= j < |fs|
        ensures Flatten(fs)[4 * j] == fs[j].normal
        ensures Flatten(fs)[4 * j + 1] == fs[j].v1
        ensures Flatten(fs)[4 * j + 2] == fs[j].v2
        ensures Flatten(fs)[4 * j + 3] == fs[j].v3
      {
        assert fs[1..][j - 1] == fs[j];
        assert 4 * j == 4 * (j - 1) + 4;
      }
    }
  }

  /**
   Grouping is the inverse of flattening: without a transformation, the facets
   of a vector stream made of whole facets are exactly those facets, and the
   iteration ends as the stream ends (or as an exhausted generator does).
   */
  lemma GroupFlatten<F>(fs: seq<Facet<F>>, end: End, sem: Semantics)
    ensures Group(Flatten(fs), end, None, sem) == Stream(fs, if end.Raised? then end else Exhausted(sem))
  {
    FlattenIndex(fs);
    var r := Group(Flatten(fs), end, None, sem);
    assert |r.items| == |fs|;
    assert forall j :: 0 <= j < |fs| ==> r.items[j] == fs[j];
  }

  /** A trailing partial facet is never yielded: facets only come from whole groups of four. */
  lemma {:induction false} GroupDropsPartialFacet<F>(vs: seq<Vector<F>>, tail: seq<Vector<F>>, end: End, t: Option<Transform<F>>, sem: Semantics)
    requires |vs| % 4 == 0
    requires |tail| < 4
    ensures Group(vs + tail, end, t, sem) == Group(vs, end, t, sem)
    decreases |vs|
  {
    if |vs| > 0 {
      assert (vs + tail)[4..] == vs[4..] + tail;
      assert (vs + tail)[..4] == vs[..4];
      GroupDropsPartialFacet(vs[4..], tail, end, t, sem);
    }
  }

  /** The normal of every facet is passed through untouched, transformation or not. */
  lemma NormalPassesThrough<F>(vs: seq<Vector<F>>, end: End, t: Option<Transform<F>>, sem: Semantics)
    ensures forall j :: 0 <= j < |Group(vs, end, t, sem).items| ==> Group(vs, end, t, sem).items[j].normal == vs[4 * j]
  {
  }

  /** Under Python 3.7 and later the facet iteration never ends normally. */
  lemma GroupNeverEndsCleanlyAsWritten<F>(vs: seq<Vector<F>>, end: End, t: Option<Transform<F>>)
    ensures Group(vs, end, t, AsWritten).end.Raised?
  {
  }
}

=== FILE: round_trip.dfy ===
/**
 Writing facets with `to_ascii` and reading the document back with the ASCII
 reader: with the reader as meant, every facet comes back, each coordinate
 having gone through one format-and-parse; as written, nothing comes back.
 */
module RoundTrip {
  import opened Wrappers
  import opened Text
  import opened Mesh
  import AsciiStl
  import Writers
  import StlFile
  import BinaryStl

  /** Formatting a number gives one word that parses back to a number. */
  ghost predicate FormatParses<F(!new)>(num: Numerics<F>) {
    forall x: F :: IsWord(num.format(x)) && num.parse(num.format(x)).Some?
  }

  /** A vector's first three components after one trip through the text. */
  function Round<F(!new)>(num: Numerics<F>, v: Vector<F>): (r: Vector<F>)
    requires FormatParses(num) && Complete(v)
    ensures |r| == 3
  {
    [num.parse(num.format(v[0])).value, num.parse(num.format(v[1])).value, num.parse(num.format(v[2])).value]
  }

  predicate FacetComplete<F(!new)>(f: Facet<F>) {
    Complete(f.normal) && Complete(f.v1) && Complete(f.v2) && Complete(f.v3)
  }

  function RoundFacet<F(!new)>(num: Numerics<F>, f: Facet<F>): Facet<F>
    requires FormatParses(num) && FacetComplete(f)
  {
    Facet(Round(num, f.normal), Round(num, f.v1), Round(num, f.v2), Round(num, f.v3))
  }

  function RoundFacets<F(!new)>(num: Numerics<F>, fs: seq<Facet<F>>): (r: seq<Facet<F>>)
    requires FormatParses(num) && Writers.AllVectorsComplete(fs)
    ensures |r| == |fs|
  {
    seq(|fs|, j requires 0 <= j < |fs| => RoundFacet(num, fs[j]))
  }

  /** Words joined by spaces hold no newline. */
  lemma {:induction false} WordsNoNewline(ws: seq<string>)
    requires forall k :: 0 <= k < |ws| ==> IsWord(ws[k])
    ensures NoNewline(Words(ws))
    decreases |ws|
  {
    if |ws| == 1 {
      assert IsWord(ws[0]);
    } else if |ws| > 1 {
      WordsNoNewline(ws[1..]);
      assert IsWord(ws[0]);
      var s := Words(ws);
      assert s == ws[0] + " " + Words(ws[1..]);
      forall i | 0 <= i < |s|
        ensures s[i] != '\n'
      {
        if i < |ws[0]| {
          assert s[i] == ws[0][i];
        } else if i > |ws[0]| {
          assert s[i] == Words(ws[1..])[i - |ws[0]| - 1];
        }
      }
    }
  }

  /** A line of words, read back with its newline: one line, stripped back to itself, ending in its last three words. */
  lemma ViewOfWords(ws: seq<string>)
    requires |ws| >= 3 && forall k :: 0 <= k < |ws| ==> IsWord(ws[k])
    ensures NoNewline(Words(ws))
    ensures Strip(Words(ws) + "\n") == Words(ws)
    ensures AsciiStl.View(Words(ws) + "\n").tokens == ws[|ws| - 3..]
  {
    WordsNoNewline(ws);
    StripTerminatedWords(ws);
    SplitWords(ws);
  }

  /** A word put in front of a non-empty list of words. */
  lemma WordsCons(w: string, ws: seq<string>)
    requires |ws| > 0
    ensures Words([w] + ws) == w + " " + Words(ws)
  {
    assert ([w] + ws)[1..] == ws;
  }

  /** A line that begins with the words `facet normal`. */
  lemma FacetNormalWords(ts: seq<string>)
    requires |ts| > 0
    ensures Words(["facet", "normal"] + ts) == "facet normal " + Words(ts)
  {
    assert ["facet", "normal"] + ts == ["facet"] + (["normal"] + ts);
    WordsCons("normal", ts);
    WordsCons("facet", ["normal"] + ts);
    FacetNormalPrefix(Words(ts));
  }

  lemma FacetNormalPrefix(x: string)
    ensures "facet" + " " + ("normal" + " " + x) == "facet normal " + x
  {
    var a, b := "facet" + " " + ("normal" + " " + x), "facet normal " + x;
    assert |a| == |b|;
    forall i | 0 <= i < |a|
      ensures a[i] == b[i]
    {
      if i >= 13 {
        assert a[i] == x[i - 13];
      }
    }
  }

  /** The three formatted components of a vector. */
  function Formatted<F>(num: Numerics<F>, v: Vector<F>): (ts: seq<string>)
    requires Complete(v)
    ensures |ts| == 3
  {
    [num.format(v[0]), num.format(v[1]), num.format(v[2])]
  }

  lemma FormattedParse<F(!new)>(num: Numerics<F>, v: Vector<F>)
    requires FormatParses(num) && Complete(v)
    ensures forall k :: 0 <= k < 3 ==> IsWord(Formatted(num, v)[k])
    ensures AsciiStl.ParseAll(Formatted(num, v), num.parse) == Some(Round(num, v))
  {
    var ts := Formatted(num, v);
    var r := Round(num, v);
    assert forall k :: 0 <= k < 3 ==> num.parse(ts[k]) == Some(r[k]);
    var p := AsciiStl.ParseAll(ts, num.parse);
    assert p.Some?;
    assert forall k :: 0 <= k < 3 ==> p.value[k] == r[k];
    assert p.value == r;
  }

  /** The words of a vector line: the keyword, then the formatted components. */
  lemma VectorLineWords<F(!new)>(keyword: seq<string>, v: Vector<F>, num: Numerics<F>)
    requires FormatParses(num) && Complete(v)
    requires forall k :: 0 <= k < |keyword| ==> IsWord(keyword[k])
    ensures var ws := keyword + Formatted(num, v);
      && Writers.VectorLine(keyword, v, num.format) == Success(Words(ws))
      && (forall k :: 0 <= k < |ws| ==> IsWord(ws[k]))
      && ws[|ws| - 3..] == Formatted(num, v)
  {
    var ts := Formatted(num, v);
    FormattedParse(num, v);
    var ws := keyword + ts;
    forall k | 0 <= k < |ws|
      ensures IsWord(ws[k])
    {
      if k >= |keyword| {
        assert ws[k] == ts[k - |keyword|];
      }
    }
  }

  /**
   A vector line, read back as a line of the file: one line, whose last three
   tokens are the three formatted components, which parse back to `Round`.
   */
  lemma ViewOfVectorLine<F(!new)>(keyword: seq<string>, v: Vector<F>, num: Numerics<F>)
    requires FormatParses(num) && Complete(v)
    requires forall k :: 0 <= k < |keyword| ==> IsWord(keyword[k])
    ensures Writers.VectorLine(keyword, v, num.format).Success?
    ensures var line := Writers.VectorLine(keyword, v, num.format).value;
      && NoNewline(line)
      && Strip(line + "\n") == line
      && AsciiStl.ParseAll(AsciiStl.View(line + "\n").tokens, num.parse) == Some(Round(num, v))
  {
    VectorLineWords(keyword, v, num);
    ViewOfWords(keyword + Formatted(num, v));
    FormattedParse(num, v);
  }

  /** A `facet normal` line passes the reader's test. */
  lemma NormalLineIsFacetStart<F(!new)>(v: Vector<F>, num: Numerics<F>)
    requires FormatParses(num) && Complete(v)
    ensures Writers.VectorLine(["facet", "normal"], v, num.format).Success?
    ensures AsciiStl.IsFacetStart(Writers.VectorLine(["facet", "normal"], v, num.format).value + "\n")
  {
    var ts := Formatted(num, v);
    VectorLineWords(["facet", "normal"], v, num);
    ViewOfWords(["facet", "normal"] + ts);
    FacetNormalWords(ts);
    assert ("facet normal " + Words(ts))[..12] == "facet normal";
  }

  /** The closing `endsolid` line does not pass the reader's test. */
  lemma EndsolidIsNotFacetStart(name: string)
    ensures !AsciiStl.IsFacetStart("endsolid " + name + "\n")
  {
    var line := "endsolid " + name + "\n";
    assert !IsSpace(line[0]);
    assert StripLeft(line) == line;
    var s := Strip(line);
    assert |s| == 0 || s[0] == 'e';
  }

  /** The records of a finished `to_ascii` run over the facets `fs`. */
  ghost predicate AsciiDocument<F(!new)>(records: seq<string>, fs: seq<Facet<F>>, name: string, num: Numerics<F>)
  {
    && |records| == 2 + 7 * |fs|
    && records[0] == "solid " + name
    && records[1 + 7 * |fs|] == "endsolid " + name
    && forall j, m :: 0 <= j < |fs| && 0 <= m < 7 ==>
         Success(records[1..1 + 7 * |fs|][7 * j + m]) == Writers.AsciiAttempt(fs[j], m, num.format)
  }

  /** A finished `to_ascii` document whose numbers and name can be read back. */
  ghost predicate Readable<F(!new)>(records: seq<string>, fs: seq<Facet<F>>, name: string, num: Numerics<F>)
  {
    && FormatParses(num)
    && Writers.AllVectorsComplete(fs)
    && NoNewline(name)
    && AsciiDocument(records, fs, name, num)
  }

  /** Record `1 + 7j + m` of the document is line `m` of facet `j`. */
  lemma RecordAt<F(!new)>(records: seq<string>, fs: seq<Facet<F>>, name: string, num: Numerics<F>, j: nat, m: nat)
    requires AsciiDocument(records, fs, name, num)
    requires j < |fs| && m < 7
    ensures Success(records[1 + 7 * j + m]) == Writers.AsciiAttempt(fs[j], m, num.format)
  {
    assert records[1..1 + 7 * |fs|][7 * j + m] == records[1 + 7 * j + m];
  }

  /** A facet line of the document holds no newline. */
  lemma FacetRecordLine<F(!new)>(records: seq<string>, fs: seq<Facet<F>>, name: string, num: Numerics<F>, j: nat, m: nat)
    requires Readable(records, fs, name, num)
    requires j < |fs| && m < 7
    ensures NoNewline(records[1 + 7 * j + m])
  {
    RecordAt(records, fs, name, num, j, m);
    var f := fs[j];
    if m == 0 {
      ViewOfVectorLine(["facet", "normal"], f.normal, num);
    } else if 2 <= m <= 4 {
      ViewOfVectorLine(["vertex"], Writers.Vertex(f, m - 2), num);
    }
  }

  /** No record of the document holds a newline when the name holds none. */
  lemma DocumentRecordsLines<F(!new)>(records: seq<string>, fs: seq<Facet<F>>, name: string, num: Numerics<F>)
    requires Readable(records, fs, name, num)
    ensures forall i :: 0 <= i < |records| ==> NoNewline(records[i])
  {
    forall i | 0 <= i < |records|
      ensures NoNewline(records[i])
    {
      if i == 0 {
        assert forall k :: 6 <= k < |records[0]| ==> records[0][k] == name[k - 6];
      } else if i == |records| - 1 {
        assert forall k :: 9 <= k < |records[i]| ==> records[i][k] == name[k - 9];
      } else {
        FacetRecordLine(records, fs, name, num, (i - 1) / 7, (i - 1) % 7);
      }
    }
  }

  /** Line `i` the reader sees is record `i` with its newline. */
  lemma ViewOfRecord(records: seq<string>, i: nat)
    requires i < |records|
    ensures AsciiStl.Views(Terminated(records))[i] == AsciiStl.View(records[i] + "\n")
  {
    AsciiStl.ViewAt(Terminated(records), i);
  }

  /** The `facet normal` record of facet `j`, with its newline, reads as its normal, rounded, and starts a block. */
  lemma NormalRecord<F(!new)>(records: seq<string>, fs: seq<Facet<F>>, name: string, num: Numerics<F>, j: nat)
    requires Readable(records, fs, name, num)
    requires j < |fs|
    ensures var view := AsciiStl.View(records[1 + 7 * j] + "\n");
      && view.facetStart
      && AsciiStl.ParseAll(view.tokens, num.parse) == Some(Round(num, fs[j].normal))
  {
    RecordAt(records, fs, name, num, j, 0);
    ViewOfVectorLine(["facet", "normal"], fs[j].normal, num);
    NormalLineIsFacetStart(fs[j].normal, num);
  }

  /** A record holding a vector line reads, with its newline, as the vector, rounded. */
  lemma VectorRecord<F(!new)>(record: string, keyword: seq<string>, v: Vector<F>, num: Numerics<F>)
    requires FormatParses(num) && Complete(v)
    requires forall k :: 0 <= k < |keyword| ==> IsWord(keyword[k])
    requires Success(record) == Writers.VectorLine(keyword, v, num.format)
    ensures AsciiStl.ParseAll(AsciiStl.View(record + "\n").tokens, num.parse) == Some(Round(num, v))
  {
    ViewOfVectorLine(keyword, v, num);
  }

  /** The `vertex` record `m` of facet `j`, with its newline, reads as that vertex, rounded. */
  lemma VertexRecord<F(!new)>(records: seq<string>, fs: seq<Facet<F>>, name: string, num: Numerics<F>, j: nat, m: nat)
    requires Readable(records, fs, name, num)
    requires j < |fs| && m < 3
    ensures Complete(Writers.Vertex(fs[j], m))
    ensures AsciiStl.ParseAll(AsciiStl.View(records[3 + 7 * j + m] + "\n").tokens, num.parse) == Some(Round(num, Writers.Vertex(fs[j], m)))
  {
    var v := Writers.Vertex(fs[j], m);
    RecordAt(records, fs, name, num, j, m + 2);
    assert Writers.AsciiAttempt(fs[j], m + 2, num.format) == Writers.VectorLine(["vertex"], v, num.format);
    VectorRecord(records[1 + 7 * j + (m + 2)], ["vertex"], v, num);
  }

  /** The block at line `q` is well formed and yields the four vectors of `f`. */
  ghost predicate BlockReadsAs<F>(views: seq<AsciiStl.LineView>, q: nat, f: Facet<F>, parse: string -> Option<F>) {
    && AsciiStl.BlockAt(views, q, parse)
    && AsciiStl.BlockVectors(views, q, parse) == [f.normal, f.v1, f.v2, f.v3]
  }

  /** Four line views that read as one facet make a well-formed block. */
  lemma ViewsBlock<F>(views: seq<AsciiStl.LineView>, q: nat, f: Facet<F>, parse: string -> Option<F>)
    requires q + 7 <= |views| && views[q].facetStart
    requires AsciiStl.ParseAll(views[q].tokens, parse) == Some(f.normal)
    requires AsciiStl.ParseAll(views[q + 2].tokens, parse) == Some(f.v1)
    requires AsciiStl.ParseAll(views[q + 3].tokens, parse) == Some(f.v2)
    requires AsciiStl.ParseAll(views[q + 4].tokens, parse) == Some(f.v3)
    ensures BlockReadsAs(views, q, f, parse)
  {
  }

  /** Four records that read as one facet, with their newlines, make a well-formed block of the lines. */
  lemma RecordsBlock<F>(records: seq<string>, q: nat, f: Facet<F>, parse: string -> Option<F>)
    requires q + 7 <= |records|
    requires AsciiStl.View(records[q] + "\n").facetStart
    requires AsciiStl.ParseAll(AsciiStl.View(records[q] + "\n").tokens, parse) == Some(f.normal)
    requires AsciiStl.ParseAll(AsciiStl.View(records[q + 2] + "\n").tokens, parse) == Some(f.v1)
    requires AsciiStl.ParseAll(AsciiStl.View(records[q + 3] + "\n").tokens, parse) == Some(f.v2)
    requires AsciiStl.ParseAll(AsciiStl.View(records[q + 4] + "\n").tokens, parse) == Some(f.v3)
    ensures BlockReadsAs(AsciiStl.Views(Terminated(records)), q, f, parse)
  {
    ViewOfRecord(records, q);
    ViewOfRecord(records, q + 2);
    ViewOfRecord(records, q + 3);
    ViewOfRecord(records, q + 4);
    ViewsBlock(AsciiStl.Views(Terminated(records)), q, f, parse);
  }

  /** Facet `j` of the document reads back as one well-formed block with its rounded vectors. */
  lemma FacetBlock<F(!new)>(records: seq<string>, fs: seq<Facet<F>>, name: string, num: Numerics<F>, j: nat)
    requires Readable(records, fs, name, num)
    requires j < |fs|
    ensures BlockReadsAs(AsciiStl.Views(Terminated(records)), 1 + 7 * j, RoundFacet(num, fs[j]), num.parse)
  {
    NormalRecord(records, fs, name, num, j);
    VertexRecord(records, fs, name, num, j, 0);
    VertexRecord(records, fs, name, num, j, 1);
    VertexRecord(records, fs, name, num, j, 2);
    RecordsBlock(records, 1 + 7 * j, RoundFacet(num, fs[j]), num.parse);
  }

  /** Blocks read as facets from line `q` on. */
  ghost predicate BlocksReadAs<F>(views: seq<AsciiStl.LineView>, q: nat, fs: seq<Facet<F>>, parse: string -> Option<F>) {
    forall j :: 0 <= j < |fs| ==> BlockReadsAs(views, q + 7 * j, fs[j], parse)
  }

  /** The first block reads as the first facet, and the blocks after it as the rest. */
  lemma ShiftBlocks<F>(views: seq<AsciiStl.LineView>, q: nat, fs: seq<Facet<F>>, parse: string -> Option<F>)
    requires |fs| > 0 && BlocksReadAs(views, q, fs, parse)
    ensures BlockReadsAs(views, q, fs[0], parse)
    ensures BlocksReadAs(views, q + 7, fs[1..], parse)
  {
    assert BlockReadsAs(views, q + 7 * 0, fs[0], parse);
    forall j | 0 <= j < |fs| - 1
      ensures BlockReadsAs(views, q + 7 + 7 * j, fs[1..][j], parse)
    {
      assert fs[1..][j] == fs[j + 1];
      assert q + 7 + 7 * j == q + 7 * (j + 1);
    }
  }

  /** A block reading as `f` in front of blocks reading as `rest` reads as `[f] + rest`. */
  lemma ConsBlocks<F>(views: seq<AsciiStl.LineView>, q: nat, f: Facet<F>, rest: seq<Facet<F>>, parse: string -> Option<F>)
    requires BlockReadsAs(views, q, f, parse)
    requires AsciiStl.Blocks(views, q + 7, |rest|, parse)
    requires AsciiStl.BlocksVectors(views, q + 7, |rest|, parse) == Flatten(rest)
    ensures AsciiStl.Blocks(views, q, |rest| + 1, parse)
    ensures AsciiStl.BlocksVectors(views, q, |rest| + 1, parse) == Flatten([f] + rest)
  {
    assert ([f] + rest)[1..] == rest;
  }

  /** Blocks that each read as one facet read, in order, as the flattened facets. */
  lemma {:induction false} BlocksOfFacets<F>(views: seq<AsciiStl.LineView>, q: nat, fs: seq<Facet<F>>, parse: string -> Option<F>)
    requires BlocksReadAs(views, q, fs, parse)
    ensures AsciiStl.Blocks(views, q, |fs|, parse)
    ensures AsciiStl.BlocksVectors(views, q, |fs|, parse) == Flatten(fs)
    decreases |fs|
  {
    if |fs| > 0 {
      ShiftBlocks(views, q, fs, parse);
      BlocksOfFacets(views, q + 7, fs[1..], parse);
      ConsBlocks(views, q, fs[0], fs[1..], parse);
      assert [fs[0]] + fs[1..] == fs;
    }
  }

  /** The document reads back as its records, each with its newline, and its header names it. */
  lemma DocumentHeader<F(!new)>(records: seq<string>, fs: seq<Facet<F>>, name: string, num: Numerics<F>)
    requires Readable(records, fs, name, num)
    ensures SplitLines(Document(records)) == Terminated(records)
    ensures Terminated(records)[0] == "solid " + name + "\n"
    ensures AsciiStl.ReadName(Terminated(records)) == Success(name + "\n")
  {
    var lines := Terminated(records);
    DocumentRecordsLines(records, fs, name, num);
    SplitLinesDocument(records);
    assert lines == ["solid " + name + "\n"] + lines[1..];
    AsciiStl.ReadNameOfHeader(name, lines[1..]);
  }

  /** The facet lines of the document are one well-formed block per facet, yielding the rounded facets. */
  lemma DocumentBlocks<F(!new)>(records: seq<string>, fs: seq<Facet<F>>, name: string, num: Numerics<F>)
    requires Readable(records, fs, name, num)
    ensures AsciiStl.Blocks(AsciiStl.Views(Terminated(records)), 1, |fs|, num.parse)
    ensures AsciiStl.BlocksVectors(AsciiStl.Views(Terminated(records)), 1, |fs|, num.parse) == Flatten(RoundFacets(num, fs))
  {
    var views := AsciiStl.Views(Terminated(records));
    var rs := RoundFacets(num, fs);
    forall j | 0 <= j < |rs|
      ensures BlockReadsAs(views, 1 + 7 * j, rs[j], num.parse)
    {
      FacetBlock(records, fs, name, num, j);
    }
    assert BlocksReadAs(views, 1, rs, num.parse);
    BlocksOfFacets(views, 1, rs, num.parse);
  }

  /** The line the reader sees for the closing `endsolid` record fails its test. */
  lemma EndRecordView(records: seq<string>, name: string, i: nat)
    requires i < |records| && records[i] == "endsolid " + name
    ensures !AsciiStl.Views(Terminated(records))[i].facetStart
  {
    EndsolidIsNotFacetStart(name);
    ViewOfRecord(records, i);
  }

  /** After the last facet the reader meets `endsolid` and stops normally. */
  lemma DocumentEnd<F(!new)>(records: seq<string>, fs: seq<Facet<F>>, name: string, num: Numerics<F>, sem: Semantics)
    requires AsciiDocument(records, fs, name, num)
    ensures AsciiStl.Scan(AsciiStl.Views(Terminated(records)), 1 + 7 * |fs|, 0, num.parse, sem) == Stream([], Clean)
  {
    EndRecordView(records, name, 1 + 7 * |fs|);
    AsciiStl.ScanStops(AsciiStl.Views(Terminated(records)), 1 + 7 * |fs|, num.parse, sem);
  }

  /** The lines hold the header and `n` well-formed blocks, then a line that stops the reader. */
  ghost predicate ReadsAs<F>(lines: seq<string>, n: nat, vs: seq<Vector<F>>, parse: string -> Option<F>)
  {
    && AsciiStl.ReadName(lines).Success?
    && AsciiStl.Blocks(AsciiStl.Views(lines), 1, n, parse)
    && AsciiStl.BlocksVectors(AsciiStl.Views(lines), 1, n, parse) == vs
    && AsciiStl.Scan(AsciiStl.Views(lines), 1 + 7 * n, 0, parse, Intended) == Stream([], Clean)
  }

  /** Such lines, read as meant, yield exactly the blocks' vectors and end normally. */
  lemma ReadBackLines<F>(lines: seq<string>, n: nat, vs: seq<Vector<F>>, parse: string -> Option<F>)
    requires ReadsAs(lines, n, vs, parse)
    ensures AsciiStl.ReadVectors(lines, parse, Intended) == Stream(vs, Clean)
  {
    var views := AsciiStl.Views(lines);
    AsciiStl.ReadBlocks(views, 1, n, parse, Intended);
    assert vs + [] == vs;
    AsciiStl.ReadVectorsAfterName(lines, parse, Intended);
  }

  /** The lines of a finished document are its header, one block per facet, and `endsolid`. */
  lemma DocumentReadsAs<F(!new)>(records: seq<string>, fs: seq<Facet<F>>, name: string, num: Numerics<F>)
    requires Readable(records, fs, name, num)
    ensures ReadsAs(SplitLines(Document(records)), |fs|, Flatten(RoundFacets(num, fs)), num.parse)
  {
    DocumentHeader(records, fs, name, num);
    DocumentBlocks(records, fs, name, num);
    DocumentEnd(records, fs, name, num, Intended);
  }

  /**
   A finished `to_ascii` document, read back by the ASCII reader as meant,
   yields every facet's vectors, rounded, and ends normally.
   */
  lemma ReadBackDocument<F(!new)>(records: seq<string>, fs: seq<Facet<F>>, name: string, num: Numerics<F>)
    requires Readable(records, fs, name, num)
    ensures AsciiStl.ReadVectors(SplitLines(Document(records)), num.parse, Intended) == Stream(Flatten(RoundFacets(num, fs)), Clean)
  {
    DocumentReadsAs(records, fs, name, num);
    ReadBackLines(SplitLines(Document(records)), |fs|, Flatten(RoundFacets(num, fs)), num.parse);
  }

  /** A finished `to_ascii` run over complete facets writes a readable document. */
  lemma ToAsciiReadable<F(!new)>(facets: Stream<Facet<F>>, arg: Option<string>, own: Option<string>, num: Numerics<F>)
    requires FormatParses(num)
    requires facets.end == Clean && Writers.AllVectorsComplete(facets.items)
    requires NoNewline(Writers.ResolveName(arg, own))
    ensures Readable(Writers.ToAscii(facets, arg, own, num.format).records, facets.items, Writers.ResolveName(arg, own), num)
  {
    Writers.ToAsciiSucceedsIff(facets, arg, own, num.format);
    Writers.ToAsciiLayout(facets, arg, own, num.format);
  }

  /** A document on disk opens as an ASCII file named after its header, newline included. */
  lemma OpenDocument<F(!new)>(records: seq<string>, fs: seq<Facet<F>>, name: string, num: Numerics<F>, bytes: seq<byte>)
    requires Readable(records, fs, name, num)
    ensures StlFile.OpenStl<F>(StlFile.File(bytes, Some(Document(records))), None, None)
      == Success(StlFile.Stl(StlFile.AsciiSource(SplitLines(Document(records))), Some(name + "\n"), None))
  {
    var text := Document(records);
    DocumentHeader(records, fs, name, num);
    assert text == records[0] + "\n" + Document(records[1..]);
    assert text[..5] == "solid";
    StlFile.OpenStlAscii<F>(StlFile.File(bytes, Some(text)), None);
  }

  /**
   The facets of a document opened as an ASCII file: every facet, rounded,
   with the reader as meant; none, and a RuntimeError, as written.
   */
  lemma DocumentFacets<F(!new)>(records: seq<string>, fs: seq<Facet<F>>, name: string, num: Numerics<F>)
    requires Readable(records, fs, name, num)
    ensures var stl := StlFile.Stl(StlFile.AsciiSource(SplitLines(Document(records))), Some(name + "\n"), None);
      && StlFile.Facets(stl, num, Intended) == Stream(RoundFacets(num, fs), Clean)
      && StlFile.Facets(stl, num, AsWritten) == Stream([], Raised(RuntimeError))
  {
    DocumentFacetsIntended(records, fs, name, num);
    DocumentFacetsAsWritten(records, fs, name, num);
  }

  lemma DocumentFacetsIntended<F(!new)>(records: seq<string>, fs: seq<Facet<F>>, name: string, num: Numerics<F>)
    requires Readable(records, fs, name, num)
    ensures var stl := StlFile.Stl(StlFile.AsciiSource(SplitLines(Document(records))), Some(name + "\n"), None);
      StlFile.Facets(stl, num, Intended) == Stream(RoundFacets(num, fs), Clean)
  {
    ReadBackDocument(records, fs, name, num);
    GroupFlatten(RoundFacets(num, fs), Clean, Intended);
  }

  lemma DocumentFacetsAsWritten<F(!new)>(records: seq<string>, fs: seq<Facet<F>>, name: string, num: Numerics<F>)
    requires Readable(records, fs, name, num)
    ensures var stl := StlFile.Stl(StlFile.AsciiSource(SplitLines(Document(records))), Some(name + "\n"), None);
      StlFile.Facets(stl, num, AsWritten) == Stream([], Raised(RuntimeError))
  {
    DocumentHeader(records, fs, name, num);
    HeaderFacetsAsWritten(SplitLines(Document(records)), name, num);
  }

  /** As written, lines headed by `solid <name>` give no facet and a RuntimeError. */
  lemma HeaderFacetsAsWritten<F>(lines: seq<string>, name: string, num: Numerics<F>)
    requires |lines| > 0 && lines[0] == "solid " + name + "\n"
    ensures StlFile.Facets(StlFile.Stl(StlFile.AsciiSource(lines), Some(name + "\n"), None), num, AsWritten) == Stream([], Raised(RuntimeError))
  {
    assert lines[0][..5] == "solid" && lines[0][5] == ' ';
    AsciiStl.HeaderReadAsFacetLine(lines, num.parse);
  }

  /**
   `to_ascii` followed by reading its output as an ASCII file: the facets come
   back rounded, with the name read from the header, newline included, when the
   reader is as meant; as written, no facet comes back.
   */
  lemma AsciiRoundTrip<F(!new)>(facets: Stream<Facet<F>>, arg: Option<string>, own: Option<string>, num: Numerics<F>, bytes: seq<byte>)
    requires FormatParses(num)
    requires facets.end == Clean && Writers.AllVectorsComplete(facets.items)
    requires NoNewline(Writers.ResolveName(arg, own))
    ensures var text := Document(Writers.ToAscii(facets, arg, own, num.format).records);
      var r := StlFile.OpenStl(StlFile.File(bytes, Some(text)), None, None);
      && r.Success?
      && r.value.source.AsciiSource?
      && r.value.name == Some(Writers.ResolveName(arg, own) + "\n")
      && StlFile.Facets(r.value, num, Intended) == Stream(RoundFacets(num, facets.items), Clean)
      && StlFile.Facets(r.value, num, AsWritten) == Stream([], Raised(RuntimeError))
  {
    var name := Writers.ResolveName(arg, own);
    var records := Writers.ToAscii(facets, arg, own, num.format).records;
    ToAsciiReadable(facets, arg, own, num);
    OpenDocument(records, facets.items, name, num, bytes);
    DocumentFacets(records, facets.items, name, num);
  }

  /** A line holding only its newline is blank: it fails the `facet normal` test. */
  lemma BlankLineIsNotFacetStart()
    ensures !AsciiStl.IsFacetStart("\n")
  {
    assert "\n"[1..] == "";
    assert StripLeft("\n") == StripLeft("");
    assert Strip("\n") == "";
  }

  /** A header record whose name ends in a newline is followed by a blank line in the document. */
  lemma HeaderThenBlank(records: seq<string>, x: string)
    requires |records| > 0 && records[0] == "solid " + x + "\n" && NoNewline(x)
    ensures var lines := SplitLines(Document(records));
      |lines| >= 2 && lines[0] == "solid " + x + "\n" && lines[1] == "\n"
  {
    var head := "solid " + x;
    var rest := Document(records[1..]);
    assert NoNewline(head) by {
      forall i | 0 <= i < |head|
        ensures head[i] != '\n'
      {
        if i >= 6 {
          assert head[i] == x[i - 6];
        }
      }
    }
    assert Document(records) == head + "\n" + ("" + "\n" + rest);
    SplitLinesCons(head, "" + "\n" + rest);
    SplitLinesCons("", rest);
  }

  /** A `solid <name>` line followed by a blank line yields nothing and ends normally, read either way. */
  lemma BlankAfterHeaderStops<F>(lines: seq<string>, x: string, parse: string -> Option<F>, sem: Semantics)
    requires |lines| >= 2 && lines[0] == "solid " + x + "\n" && lines[1] == "\n"
    ensures AsciiStl.ReadVectors(lines, parse, sem) == Stream([], Clean)
  {
    var views := AsciiStl.Views(lines);
    assert lines[0][5] == ' ';
    assert StartsWith(lines[0], "solid");
    AsciiStl.ViewAt(lines, 0);
    AsciiStl.ViewAt(lines, 1);
    BlankLineIsNotFacetStart();
    AsciiStl.SolidIsNotFacetStart(lines[0]);
    AsciiStl.ScanStops(views, AsciiStl.FirstFacetLine(sem), parse, sem);
  }

  /**
   A name ending in a newline (as `read_name` leaves it) makes `to_ascii` write
   a blank line after the header.  Both readers stop there normally: as
   written at the header, as meant at the blank line.  So no facet comes back.
   */
  lemma NewlineNameStopsReader<F>(facets: Stream<Facet<F>>, arg: Option<string>, own: Option<string>, x: string, format: F -> string, parse: string -> Option<F>, sem: Semantics)
    requires Writers.ResolveName(arg, own) == x + "\n" && NoNewline(x)
    ensures var lines := SplitLines(Document(Writers.ToAscii(facets, arg, own, format).records));
      && |lines| >= 2 && lines[0] == "solid " + x + "\n" && lines[1] == "\n"
      && AsciiStl.ReadVectors(lines, parse, sem) == Stream([], Clean)
  {
    var records := Writers.ToAscii(facets, arg, own, format).records;
    assert records[0] == "solid " + x + "\n";
    HeaderThenBlank(records, x);
    BlankAfterHeaderStops(SplitLines(Document(records)), x, parse, sem);
  }

  /** The text after a space in a line that ends with its only newline keeps that newline. */
  lemma TailKeepsNewline(a: string, n: string)
    requires var l := a + " " + n; l[|l| - 1] == '\n' && NoNewline(l[..|l| - 1])
    ensures |n| > 0 && n == n[..|n| - 1] + "\n" && NoNewline(n[..|n| - 1])
  {
    var l := a + " " + n;
    var body := l[..|l| - 1];
    assert l[|a|] == ' ';
    assert |n| > 0;
    var m := n[..|n| - 1];
    assert forall i :: 0 <= i < |m| ==> m[i] == body[|a| + 1 + i];
  }

  /** A name read from a first line that ends in a newline is some newline-free text plus that newline. */
  lemma NameKeepsNewline(lines: seq<string>)
    requires AsciiStl.ReadName(lines).Success?
    requires var l := lines[0]; |l| > 0 && l[|l| - 1] == '\n' && NoNewline(l[..|l| - 1])
    ensures var n := AsciiStl.ReadName(lines).value;
      |n| > 0 && n == n[..|n| - 1] + "\n" && NoNewline(n[..|n| - 1])
  {
    var l := lines[0];
    var n := AsciiStl.ReadName(lines).value;
    var p :| 0 <= p < |l| && ' ' !in l[..p] && l == l[..p] + " " + n;
    TailKeepsNewline(l[..p], n);
  }

  /**
   Converting an ASCII file opened without a name back to ASCII loses every
   facet when its text holds a newline: the name keeps the header's newline, so
   the document's second line is blank and the reader stops there.
   */
  lemma AsciiToAsciiLosesFacets<F>(file: StlFile.File, t: Option<Transform<F>>, num: Numerics<F>, sem: Semantics)
    requires StlFile.OpenStl(file, None, t).Success? && StlFile.Detect(file) == StlFile.Ascii
    requires '\n' in file.text.value
    ensures var stl := StlFile.OpenStl(file, None, t).value;
      AsciiStl.ReadVectors(SplitLines(Document(StlFile.ToAscii(stl, None, num, sem).records)), num.parse, sem) == Stream([], Clean)
  {
    var lines := SplitLines(file.text.value);
    var stl := StlFile.OpenStl(file, None, t).value;
    FirstLineEnds(file.text.value);
    NameKeepsNewline(lines);
    var n := AsciiStl.ReadName(lines).value;
    assert stl.name == Some(n);
    NewlineNameStopsReader(StlFile.Facets(stl, num, sem), None, stl.name, n[..|n| - 1], num.format, num.parse, sem);
  }

  /**
   A complete binary file converted with `to_ascii` and read back as meant gives
   the binary file's facets, vertices transformed, with every coordinate rounded
   through the text.
   */
  lemma BinaryToAsciiRoundTrip<F(!new)>(bytes: seq<byte>, name: Option<string>, t: Option<Transform<F>>, arg: Option<string>, num: Numerics<F>, text: seq<byte>)
    requires FormatParses(num)
    requires BinaryStl.ReadVectors(bytes, num).end == Clean
    requires KeepsComplete(t)
    requires NoNewline(Writers.ResolveName(arg, name))
    ensures var stl := StlFile.Stl(StlFile.BinarySource(bytes), name, t);
      var facets := StlFile.Facets(stl, num, Intended);
      var doc := Document(StlFile.ToAscii(stl, arg, num, Intended).records);
      var r := StlFile.OpenStl(StlFile.File(text, Some(doc)), None, None);
      && Writers.AllVectorsComplete(facets.items)
      && r.Success?
      && StlFile.Facets(r.value, num, Intended) == Stream(RoundFacets(num, facets.items), Clean)
  {
    StlFile.BinaryFacets(bytes, name, t, num, Intended);
    var facets := StlFile.Facets(StlFile.Stl(StlFile.BinarySource(bytes), name, t), num, Intended);
    AsciiRoundTrip(facets, arg, name, num, text);
  }
}

=== FILE: stl_file.dfy ===
/**
 `open_stl` and the two kinds of STL file object: which reader a file gets, the
 name it is given, and what `__iter__`, `to_obj` and `to_ascii` produce when the
 reader, the facet grouping and the writers are put together.
 */
module StlFile {
  import opened Wrappers
  import opened Text
  import opened Mesh
  import BinaryStl
  import AsciiStl
  import Writers
  import Affine

  /** What a file object reads: the lines of a text file or the bytes of a binary one. */
  datatype Source = AsciiSource(lines: seq<string>) | BinarySource(bytes: seq<byte>)

  /** An `AsciiSTLFile` or `BinarySTLFile`: its source, `self.name` and `self.transformation`. */
  datatype Stl<!F> = Stl(source: Source, name: Option<string>, transformation: Option<Transform<F>>)

  /** `self.read_vectors()`, dispatched on the kind of file. */
  function ReadVectors<F>(stl: Stl<F>, num: Numerics<F>, sem: Semantics): Stream<Vector<F>>
  {
    match stl.source
    case AsciiSource(lines) => AsciiStl.ReadVectors(lines, num.parse, sem)
    case BinarySource(bytes) => BinaryStl.ReadVectors(bytes, num)
  }

  /** `iter(self)`: the facets, vertices mapped through the transformation. */
  function Facets<F>(stl: Stl<F>, num: Numerics<F>, sem: Semantics): Stream<Facet<F>>
  {
    var vs := ReadVectors(stl, num, sem);
    Group(vs.items, vs.end, stl.transformation, sem)
  }

  /** `self.to_obj(obj, name, offset)` */
  function ToObj<F>(stl: Stl<F>, arg: Option<string>, offset: int, num: Numerics<F>, sem: Semantics): Writers.Written<nat>
  {
    Writers.ToObj(Facets(stl, num, sem), arg, stl.name, offset, num.format)
  }

  /** `self.to_ascii(stlfile, name)` */
  function ToAscii<F>(stl: Stl<F>, arg: Option<string>, num: Numerics<F>, sem: Semantics): Writers.Written<()>
  {
    Writers.ToAscii(Facets(stl, num, sem), arg, stl.name, num.format)
  }

  /**
   A file on disk: its bytes, and its text when it decodes in the text
   encoding (`None` stands for a `UnicodeDecodeError`).  The text is the one
   Python's text mode returns, after universal-newline translation, so every
   line ends with `\n` and never with `\r\n`.
   */
  datatype File = File(bytes: seq<byte>, text: Option<string>)

  datatype Format = Ascii | Binary

  /** The test of `open_stl`: the file decodes and `readline(5)` is `'solid'`. */
  function Detect(file: File): Format
  {
    if file.text.Some? && ReadLine(file.text.value, 5) == "solid" then Ascii else Binary
  }

  /** The file is read as ASCII exactly when its text starts with `solid`, case-sensitively. */
  lemma DetectIff(file: File)
    ensures Detect(file) == Ascii <==> file.text.Some? && StartsWith(file.text.value, "solid")
  {
    if file.text.Some? {
      ReadLineSolid(file.text.value);
    }
  }

  /** `solidx` is ASCII; ` solid`, `SOLID` and a file that does not decode are binary. */
  lemma DetectExamples(b: seq<byte>)
    ensures Detect(File(b, Some("solidx"))) == Ascii
    ensures Detect(File(b, Some(" solid"))) == Binary
    ensures Detect(File(b, Some("SOLID"))) == Binary
    ensures Detect(File(b, None)) == Binary
  {
    DetectIff(File(b, Some("solidx")));
    DetectIff(File(b, Some(" solid")));
    DetectIff(File(b, Some("SOLID")));
  }

  /** A text that starts with `solid` has a first line that starts with `solid`. */
  lemma FirstLineSolid(t: string)
    requires StartsWith(t, "solid")
    ensures |SplitLines(t)| > 0 && StartsWith(SplitLines(t)[0], "solid")
  {
    var n := LineLength(t);
    assert SplitLines(t)[0] == t[..n];
    assert t[..n][..5] == t[..5];
  }

  /**
   `open_stl(filename, name, transformation)`: an `AsciiSTLFile` over the lines
   of the text when `Detect` says ASCII, else a `BinarySTLFile`.  Without a name
   argument the ASCII constructor calls `read_name`, which can raise.
   */
  function OpenStl<F>(file: File, name: Option<string>, transformation: Option<Transform<F>>): (r: Result<Stl<F>, Error>)
    ensures r.Success? ==> r.value.transformation == transformation
    ensures r.Success? ==> (r.value.source.AsciiSource? <==> Detect(file) == Ascii)
    ensures r.Success? && r.value.source.BinarySource? ==> r.value.source.bytes == file.bytes
    ensures r.Success? && r.value.source.AsciiSource? ==>
      file.text.Some? && r.value.source.lines == SplitLines(file.text.value)
    ensures r.Success? && (name.Some? || Detect(file) == Binary) ==> r.value.name == name
    ensures Detect(file) == Ascii && name.None? ==>
      var n := AsciiStl.ReadName(SplitLines(file.text.value));
      && (r.Success? <==> n.Success?)
      && (r.Success? ==> r.value.name == Some(n.value))
    ensures r.Failure? ==> r.error == IndexError && Detect(file) == Ascii && name.None?
  {
    if Detect(file) == Ascii then
      var lines := SplitLines(file.text.value);
      DetectIff(file);
      FirstLineSolid(file.text.value);
      if name.Some? then Success(Stl(AsciiSource(lines), name, transformation))
      else
        match AsciiStl.ReadName(lines)
        case Failure(e) => Failure(e)
        case Success(n) => Success(Stl(AsciiSource(lines), Some(n), transformation))
    else Success(Stl(BinarySource(file.bytes), name, transformation))
  }

  /** A text starting with `solid` whose name can be read opens as an ASCII file with that name. */
  lemma OpenStlAscii<F>(file: File, transformation: Option<Transform<F>>)
    requires file.text.Some? && StartsWith(file.text.value, "solid")
    requires AsciiStl.ReadName(SplitLines(file.text.value)).Success?
    ensures var lines := SplitLines(file.text.value);
      OpenStl(file, None, transformation) == Success(Stl(AsciiSource(lines), Some(AsciiStl.ReadName(lines).value), transformation))
  {
    DetectIff(file);
  }

  /**
   An ASCII file opened without a name is named after the text that follows the
   first space of its first line, newline included.
   */
  lemma OpenStlName<F>(file: File, transformation: Option<Transform<F>>)
    requires OpenStl(file, None, transformation).Success?
    requires Detect(file) == Ascii
    ensures var lines := SplitLines(file.text.value);
      && |lines| > 0
      && OpenStl(file, None, transformation).value.name == Some(AsciiStl.ReadName(lines).value)
      && exists p :: 0 <= p < |lines[0]| && ' ' !in lines[0][..p] && lines[0] == lines[0][..p] + " " + AsciiStl.ReadName(lines).value
  {
    DetectIff(file);
    FirstLineSolid(file.text.value);
  }

  /**
   As written, every file `open_stl` reads as ASCII yields no vectors and so no
   facets, because the first line tested is the `solid` header.
   */
  lemma AsciiYieldsNothingAsWritten<F>(file: File, name: Option<string>, transformation: Option<Transform<F>>, num: Numerics<F>)
    requires OpenStl(file, name, transformation).Success?
    requires OpenStl(file, name, transformation).value.source.AsciiSource?
    ensures ReadVectors(OpenStl(file, name, transformation).value, num, AsWritten).items == []
    ensures Facets(OpenStl(file, name, transformation).value, num, AsWritten).items == []
  {
    DetectIff(file);
    FirstLineSolid(file.text.value);
    AsciiStl.HeaderReadAsFacetLine(SplitLines(file.text.value), num.parse);
  }

  /** Every vector a binary file yields has exactly three components. */
  lemma BinaryVectorsHaveThree<F>(bytes: seq<byte>, num: Numerics<F>)
    ensures forall i :: 0 <= i < |BinaryStl.ReadVectors(bytes, num).items| ==> |BinaryStl.ReadVectors(bytes, num).items[i]| == 3
  {
    BinaryStl.ReadVectorsLayout(bytes, num);
  }

  /**
   A complete binary file gives one facet per record: the record's normal, and
   its three vertices mapped through the transformation if one is set.  When
   the transformation keeps vertices complete, every vector of every facet is
   complete.
   */
  lemma BinaryFacets<F(!new)>(bytes: seq<byte>, name: Option<string>, t: Option<Transform<F>>, num: Numerics<F>, sem: Semantics)
    requires BinaryStl.ReadVectors(bytes, num).end == Clean
    ensures var s := Facets(Stl(BinarySource(bytes), name, t), num, sem);
      var vs := BinaryStl.ReadVectors(bytes, num).items;
      && |s.items| == BinaryStl.Count(bytes)
      && s.end == Exhausted(sem)
      && (forall j :: 0 <= j < |s.items| ==>
            s.items[j] == Facet(vs[4 * j], Place(t, vs[4 * j + 1]), Place(t, vs[4 * j + 2]), Place(t, vs[4 * j + 3])))
      && (KeepsComplete(t) ==> Writers.AllVectorsComplete(s.items))
  {
    var vs := BinaryStl.ReadVectors(bytes, num).items;
    var s := Facets(Stl(BinarySource(bytes), name, t), num, sem);
    BinaryVectorsHaveThree(bytes, num);
    assert |vs| / 4 == BinaryStl.Count(bytes);
    GroupComplete(vs, Clean, t, sem);
  }

  /**
   The conversion of a complete binary file under a transformation that keeps
   vertices complete: meant to write every vertex, `s 1`, the group name and one
   face line per facet, and return three times the facet count; as written it
   stops after the `v` lines with a RuntimeError.
   */
  lemma BinaryToObj<F(!new)>(bytes: seq<byte>, name: Option<string>, t: Option<Transform<F>>, arg: Option<string>, offset: int, num: Numerics<F>, sem: Semantics)
    requires BinaryStl.ReadVectors(bytes, num).end == Clean
    requires KeepsComplete(t)
    ensures var w := ToObj(Stl(BinarySource(bytes), name, t), arg, offset, num, sem);
      && (sem.Intended? ==> w.outcome == Success(3 * BinaryStl.Count(bytes)) && |w.records| == 3 + 4 * BinaryStl.Count(bytes))
      && (sem.AsWritten? ==> w.outcome == Failure(RuntimeError) && |w.records| == 1 + 3 * BinaryStl.Count(bytes) && "s 1" !in w.records)
  {
    var stl := Stl(BinarySource(bytes), name, t);
    var s := Facets(stl, num, sem);
    BinaryFacets(bytes, name, t, num, sem);
    assert Writers.AllComplete(s.items);
    var w := ToObj(stl, arg, offset, num, sem);
    if sem.Intended? {
      Writers.ToObjLayout(s, arg, name, offset, num.format);
    } else {
      Writers.ToObjFailure(s, arg, name, offset, num.format);
      var a := Writers.ObjAttempts(s.items, num.format);
      Writers.ObjAttemptsFail(s.items, num.format);
      Writers.EmitAll(a);
    }
  }

  /**
   What the command-line driver does with a binary file: set a 4x4 matrix and
   call `to_obj` with no name and offset 0.  Facet `j` is the record's normal
   and the matrix images of its three vertices; the conversion is meant to
   return three times the facet count, and as written fails with a RuntimeError
   before `s 1`.
   */
  lemma BinaryToObjWithMatrix(bytes: seq<byte>, name: Option<string>, m: Affine.Matrix, num: Numerics<real>, sem: Semantics)
    requires BinaryStl.ReadVectors(bytes, num).end == Clean
    requires Affine.Is4x4(m)
    ensures var stl := Stl(BinarySource(bytes), name, Some(Affine.AsTransform(m)));
      var s := Facets(stl, num, sem);
      var vs := BinaryStl.ReadVectors(bytes, num).items;
      && |s.items| == BinaryStl.Count(bytes)
      && (forall j :: 0 <= j < |s.items| ==>
            && 4 * j + 3 < |vs|
            && Complete(vs[4 * j + 1]) && Complete(vs[4 * j + 2]) && Complete(vs[4 * j + 3])
            && s.items[j] == Facet(vs[4 * j], Affine.TransformVert(m, vs[4 * j + 1]),
                                   Affine.TransformVert(m, vs[4 * j + 2]), Affine.TransformVert(m, vs[4 * j + 3])))
      && (sem.Intended? ==> ToObj(stl, None, 0, num, sem).outcome == Success(3 * |s.items|))
      && (sem.AsWritten? ==> ToObj(stl, None, 0, num, sem).outcome == Failure(RuntimeError))
  {
    var t := Some(Affine.AsTransform(m));
    var vs := BinaryStl.ReadVectors(bytes, num);
    Affine.MatrixKeepsComplete(m);
    BinaryFacets(bytes, name, t, num, sem);
    Affine.AffineFacets(vs.items, vs.end, m, sem);
    BinaryToObj(bytes, name, t, None, 0, num, sem);
  }

  /** As written, `to_obj` never finishes: it never writes `s 1` or a face line, and never returns. */
  lemma ToObjNeverFinishesAsWritten<F>(stl: Stl<F>, arg: Option<string>, offset: int, num: Numerics<F>)
    ensures ToObj(stl, arg, offset, num, AsWritten).outcome.Failure?
    ensures "s 1" !in ToObj(stl, arg, offset, num, AsWritten).records
  {
    var s := Facets(stl, num, AsWritten);
    var vs := ReadVectors(stl, num, AsWritten);
    GroupNeverEndsCleanlyAsWritten(vs.items, vs.end, stl.transformation);
    Writers.ToObjFailure(s, arg, stl.name, offset, num.format);
  }

  /** As written, `to_ascii` never finishes: it never writes `endsolid`. */
  lemma ToAsciiNeverFinishesAsWritten<F>(stl: Stl<F>, arg: Option<string>, num: Numerics<F>)
    ensures ToAscii(stl, arg, num, AsWritten).outcome.Failure?
  {
    var vs := ReadVectors(stl, num, AsWritten);
    GroupNeverEndsCleanlyAsWritten(vs.items, vs.end, stl.transformation);
    Writers.ToAsciiSucceedsIff(Facets(stl, num, AsWritten), arg, stl.name, num.format);
  }
}

=== FILE: text.dfy ===
/**
 The string operations of Python that the converter relies on: `str.isspace`,
 `strip`, `split()`, `startswith`, line iteration over a text file,
 `readline(size)` and `str(int)`.  Output documents are modelled as a sequence
 of records, each followed by a newline when written.
 */
module Text {

  /** Python's whitespace characters (those for which `str.isspace()` holds). */
  predicate IsSpace(c: char) {
    || c == ' '
    || ('\t' <= c <= '\r')
    || ('\U{1C}' <= c <= '\U{1F}')
    || c == '\U{85}' || c == '\U{A0}' || c == '\U{1680}'
    || ('\U{2000}' <= c <= '\U{200A}')
    || c == '\U{2028}' || c == '\U{2029}' || c == '\U{202F}'
    || c == '\U{205F}' || c == '\U{3000}'
  }

  /** A non-empty word without whitespace: what `split()` can produce. */
  predicate IsWord(w: string) {
    |w| > 0 && forall i :: 0 <= i < |w| ==> !IsSpace(w[i])
  }

  /** `s.startswith(prefix)` */
  predicate StartsWith(s: string, prefix: string) {
    |prefix| <= |s| && s[..|prefix|] == prefix
  }

  /** `s.lstrip()` */
  function StripLeft(s: string): (r: string)
    ensures |r| <= |s| && r == s[|s| - |r|..]
    ensures |r| > 0 ==> !IsSpace(r[0])
    ensures forall i :: 0 <= i < |s| - |r| ==> IsSpace(s[i])
  {
    if |s| > 0 && IsSpace(s[0]) then StripLeft(s[1..]) else s
  }

  /** `s.rstrip()` */
  function StripRight(s: string): (r: string)
    ensures |r| <= |s| && r == s[..|r|]
    ensures |r| > 0 ==> !IsSpace(r[|r| - 1])
    ensures forall i :: |r| <= i < |s| ==> IsSpace(s[i])
  {
    if |s| > 0 && IsSpace(s[|s| - 1]) then StripRight(s[..|s| - 1]) else s
  }

  /** `s.strip()` */
  function Strip(s: string): string {
    StripRight(StripLeft(s))
  }

  /** Length of the word at the start of `s` (0 when `s` starts with whitespace). */
  function WordLength(s: string): (n: nat)
    ensures n <= |s|
    ensures forall i :: 0 <= i < n ==> !IsSpace(s[i])
    ensures n < |s| ==> IsSpace(s[n])
  {
    if |s| == 0 || IsSpace(s[0]) then 0 else 1 + WordLength(s[1..])
  }

  /** `s.split()`: the maximal runs of non-whitespace characters, in order. */
  function Split(s: string): (r: seq<string>)
    ensures forall k :: 0 <= k < |r| ==> IsWord(r[k])
    decreases |s|
  {
    if |s| == 0 then []
    else if IsSpace(s[0]) then Split(s[1..])
    else
      var n := WordLength(s);
      [s[..n]] + Split(s[n..])
  }

  /** `' '.join(ws)` */
  function Words(ws: seq<string>): string
  {
    if |ws| == 0 then ""
    else if |ws| == 1 then ws[0]
    else ws[0] + " " + Words(ws[1..])
  }

  lemma {:induction false} WordLengthOfWord(w: string, rest: string)
    requires IsWord(w)
    requires |rest| == 0 || IsSpace(rest[0])
    ensures WordLength(w + rest) == |w|
    decreases |w|
  {
    if |w| > 1 {
      assert (w + rest)[1..] == w[1..] + rest;
      WordLengthOfWord(w[1..], rest);
    } else {
      assert (w + rest)[1..] == rest;
    }
  }

  /** Splitting words joined by single spaces gives back the words. */
  lemma {:induction false} SplitWords(ws: seq<string>)
    requires forall k :: 0 <= k < |ws| ==> IsWord(ws[k])
    ensures Split(Words(ws)) == ws
    decreases |ws|
  {
    if |ws| == 1 {
      WordLengthOfWord(ws[0], "");
      assert ws[0] + "" == ws[0];
      assert ws[0][|ws[0]|..] == "";
    } else if |ws| > 1 {
      var w, rest := ws[0], " " + Words(ws[1..]);
      assert Words(ws) == w + rest;
      WordLengthOfWord(w, rest);
      assert (w + rest)[..|w|] == w;
      assert (w + rest)[|w|..] == rest;
      assert rest[1..] == Words(ws[1..]);
      SplitWords(ws[1..]);
      assert ws == [w] + ws[1..];
    }
  }

  /** A line made of words neither starts nor ends with whitespace. */
  lemma {:induction false} WordsEnds(ws: seq<string>)
    requires |ws| > 0
    requires forall k :: 0 <= k < |ws| ==> IsWord(ws[k])
    ensures |Words(ws)| > 0
    ensures !IsSpace(Words(ws)[0])
    ensures !IsSpace(Words(ws)[|Words(ws)| - 1])
    decreases |ws|
  {
    if |ws| > 1 {
      WordsEnds(ws[1..]);
    }
  }

  /** Stripping a line of words followed by its newline gives the words back. */
  lemma StripTerminatedWords(ws: seq<string>)
    requires |ws| > 0
    requires forall k :: 0 <= k < |ws| ==> IsWord(ws[k])
    ensures Strip(Words(ws) + "\n") == Words(ws)
  {
    var s := Words(ws);
    WordsEnds(ws);
    assert StripLeft(s + "\n") == s + "\n";
    assert (s + "\n")[..|s|] == s;
    assert StripRight(s + "\n") == StripRight(s);
  }

  /** Length of the first line of `t`, including its newline if it has one. */
  function LineLength(t: string): (n: nat)
    requires |t| > 0
    ensures 1 <= n <= |t|
    ensures forall i :: 0 <= i < n - 1 ==> t[i] != '\n'
    ensures n < |t| ==> t[n - 1] == '\n'
  {
    if t[0] == '\n' || |t| == 1 then 1 else 1 + LineLength(t[1..])
  }

  /** Iterating over a text file: its lines, each keeping its newline. */
  function SplitLines(t: string): (r: seq<string>)
    ensures forall k :: 0 <= k < |r| ==> |r[k]| > 0
    decreases |t|
  {
    if |t| == 0 then [] else
      var n := LineLength(t);
      [t[..n]] + SplitLines(t[n..])
  }

  /** The text written when every record is followed by a newline. */
  function Document(records: seq<string>): string
  {
    if |records| == 0 then "" else records[0] + "\n" + Document(records[1..])
  }

  predicate NoNewline(s: string) {
    forall i :: 0 <= i < |s| ==> s[i] != '\n'
  }

  /** Records followed by their newline, as the file iterator yields them. */
  function Terminated(records: seq<string>): (r: seq<string>)
    ensures |r| == |records|
    ensures forall k :: 0 <= k < |r| ==> r[k] == records[k] + "\n"
  {
    seq(|records|, k requires 0 <= k < |records| => records[k] + "\n")
  }

  /** A document of newline-free records reads back as those records. */
  lemma {:induction false} SplitLinesDocument(records: seq<string>)
    requires forall k :: 0 <= k < |records| ==> NoNewline(records[k])
    ensures SplitLines(Document(records)) == Terminated(records)
    decreases |records|
  {
    if |records| > 0 {
      var line := records[0] + "\n";
      var t := Document(records);
      assert t == line + Document(records[1..]);
      LineLengthOfLine(records[0], Document(records[1..]));
      assert t[..|line|] == line;
      assert t[|line|..] == Document(records[1..]);
      SplitLinesDocument(records[1..]);
    }
  }

  /** A text holding a newline has a first line that ends with its only newline. */
  lemma FirstLineEnds(t: string)
    requires '\n' in t
    ensures |SplitLines(t)| > 0
    ensures var l := SplitLines(t)[0]; |l| > 0 && l[|l| - 1] == '\n' && NoNewline(l[..|l| - 1])
  {
    var n := LineLength(t);
    assert SplitLines(t)[0] == t[..n];
    var k :| 0 <= k < |t| && t[k] == '\n';
    assert k >= n - 1;
    assert t[n - 1] == '\n';
  }

  /** A line without a newline, followed by one, splits off as the first line. */
  lemma SplitLinesCons(s: string, rest: string)
    requires NoNewline(s)
    ensures SplitLines(s + "\n" + rest) == [s + "\n"] + SplitLines(rest)
  {
    var t := s + "\n" + rest;
    LineLengthOfLine(s, rest);
    assert t[..|s| + 1] == s + "\n";
    assert t[|s| + 1..] == rest;
  }

  lemma {:induction false} LineLengthOfLine(s: string, rest: string)
    requires NoNewline(s)
    ensures LineLength(s + "\n" + rest) == |s| + 1
    decreases |s|
  {
    if |s| > 0 {
      assert (s + "\n" + rest)[1..] == s[1..] + "\n" + rest;
      LineLengthOfLine(s[1..], rest);
    }
  }

  function Min(a: int, b: int): int { if a <= b then a else b }

  /** `f.readline(limit)` on a text file: the first line, cut after `limit` characters. */
  function ReadLine(t: string, limit: nat): (r: string)
    ensures |r| <= limit && StartsWith(t, r)
    ensures forall i :: 0 <= i < |r| - 1 ==> r[i] != '\n'
    ensures |r| == limit || |r| == |t| || (|r| > 0 && r[|r| - 1] == '\n')
  {
    if |t| == 0 then "" else t[..Min(limit, LineLength(t))]
  }

  /** `readline(5) == 'solid'` is exactly the case-sensitive prefix test. */
  lemma ReadLineSolid(t: string)
    ensures ReadLine(t, 5) == "solid" <==> StartsWith(t, "solid")
  {
    if StartsWith(t, "solid") {
      assert t[..5] == "solid";
      assert ReadLine(t, 5) == t[..5];
    }
  }

  /** The decimal digit character for `d`. */
  function Digit(d: nat): (c: char)
    requires d < 10
    ensures '0' <= c <= '9'
  {
    (('0' as int) + d) as char
  }

  /** `str(n)` for a natural number. */
  function NatToString(n: nat): (s: string)
    ensures |s| > 0
    ensures forall i :: 0 <= i < |s| ==> '0' <= s[i] <= '9'
    decreases n
  {
    if n < 10 then [Digit(n)] else NatToString(n / 10) + [Digit(n % 10)]
  }

  /** `str(i)` for any Python integer. */
  function IntToString(i: int): string
  {
    if i < 0 then "-" + NatToString(-i) else NatToString(i)
  }

  /** The number a string of decimal digits denotes. */
  function DecimalValue(s: string): int
  {
    if |s| == 0 then 0
    else 10 * DecimalValue(s[..|s| - 1]) + ((s[|s| - 1] as int) - ('0' as int))
  }

  /** Reading back the decimal text of a number gives the number. */
  lemma {:induction false} NatToStringValue(n: nat)
    ensures DecimalValue(NatToString(n)) == n
    decreases n
  {
    if n >= 10 {
      var s := NatToString(n);
      assert s[..|s| - 1] == NatToString(n / 10);
      NatToStringValue(n / 10);
    }
  }

  /** `int(s)` for an optionally signed string of decimal digits. */
  function IntValue(s: string): int
  {
    if |s| > 0 && s[0] == '-' then -DecimalValue(s[1..]) else DecimalValue(s)
  }

  /** `int(str(i)) == i`: the text of an integer reads back as that integer, signed exactly when negative. */
  lemma IntToStringValue(i: int)
    ensures var s := IntToString(i);
      |s| > 0 && (s[0] == '-' <==> i < 0) && IntValue(s) == i
  {
    if i < 0 {
      NatToStringValue(-i);
      assert IntToString(i)[1..] == NatToString(-i);
    } else {
      NatToStringValue(i);
    }
  }
}

=== FILE: wrappers.dfy ===
/** Failure-compatible wrappers used for the exceptions the converter can raise. */
module Wrappers {

  /** A value that may be absent (Python's `None`). */
  datatype Option<+T> = None | Some(value: T)

  /** Either a value or the error that was raised instead of producing it. */
  datatype Result<+T, +E> = Success(value: T) | Failure(error: E)
}

=== FILE: writers.dfy ===
/**
 `_STLFile.to_obj` and `_STLFile.to_ascii`: the records each writer emits, in
 order.  A record is one `write` call's text without its final newline (the
 single `write` of `s 1` and `g <name>` makes two records), so the text
 written is `Document(records)`.  A name holding a newline makes its record
 span two lines.  Both writers pull facets lazily, so an
 exception leaves the records written so far in the output.
 */
module Writers {
  import opened Wrappers
  import opened Text
  import opened Mesh

  /** A Python string is truthy when it is not `None` and not empty. */
  predicate Truthy(s: Option<string>) {
    s.Some? && |s.value| > 0
  }

  /**
   `name or self.name or 'default'`: the first truthy of the argument and the
   object's own name, else `'default'`.
   */
  function ResolveName(arg: Option<string>, own: Option<string>): (r: string)
    ensures |r| > 0
    ensures r == "default" || (Truthy(arg) && r == arg.value) || (Truthy(own) && r == own.value)
    ensures Truthy(arg) ==> r == arg.value
    ensures !Truthy(arg) && Truthy(own) ==> r == own.value
  {
    if Truthy(arg) then arg.value else if Truthy(own) then own.value else "default"
  }

  /** What a run of `write` calls leaves behind: the records written, then the exception if any. */
  datatype Emitted = Emitted(records: seq<string>, error: Option<Error>)

  /**
   Performs the attempts in order, writing each successful record and stopping
   at the first failed one.
   */
  function Emit(attempts: seq<Result<string, Error>>): (e: Emitted)
    ensures |e.records| <= |attempts|
    ensures forall k :: 0 <= k < |e.records| ==> attempts[k] == Success(e.records[k])
    ensures e.error.None? <==> |e.records| == |attempts|
    ensures e.error.Some? ==> attempts[|e.records|] == Failure(e.error.value)
  {
    if |attempts| == 0 then Emitted([], None)
    else
      match attempts[0]
      case Failure(err) => Emitted([], Some(err))
      case Success(s) =>
        var rest := Emit(attempts[1..]);
        assert forall k :: 0 < k < |rest.records| + 1 ==> attempts[k] == attempts[1..][k - 1];
        Emitted([s] + rest.records, rest.error)
  }

  /**
   `'<keyword> {:6f} {:6f} {:6f}'.format(*v)`: the keyword words and the three
   formatted components separated by single spaces.  A vector with fewer than
   three components makes `format` raise IndexError; extra ones are ignored.
   */
  function VectorLine<F>(keyword: seq<string>, v: Vector<F>, format: F -> string): (r: Result<string, Error>)
    ensures r.Failure? <==> !Complete(v)
    ensures r.Failure? ==> r.error == IndexError
  {
    if |v| < 3 then Failure(IndexError)
    else Success(Words(keyword + [format(v[0]), format(v[1]), format(v[2])]))
  }

  /** Only the first three components of a vector reach its line. */
  lemma VectorLineFirstThree<F>(keyword: seq<string>, v: Vector<F>, format: F -> string)
    requires Complete(v)
    ensures VectorLine(keyword, v, format) == VectorLine(keyword, v[..3], format)
  {
  }

  /** Vertex `m` (0, 1 or 2) of a facet. */
  function Vertex<F>(f: Facet<F>, m: nat): Vector<F>
    requires m < 3
  {
    if m == 0 then f.v1 else if m == 1 then f.v2 else f.v3
  }

  /** The three vertices of every facet have at least three components. */
  predicate AllComplete<F>(fs: seq<Facet<F>>) {
    forall j :: 0 <= j < |fs| ==> Complete(fs[j].v1) && Complete(fs[j].v2) && Complete(fs[j].v3)
  }

  /** The `m`-th `v` line `to_obj` writes for a facet. */
  function ObjAttempt<F>(f: Facet<F>, m: nat, format: F -> string): Result<string, Error>
    requires m < 3
  {
    VectorLine(["v"], Vertex(f, m), format)
  }

  /** The `v` lines of the facet loop of `to_obj`, three per facet. */
  function ObjAttempts<F>(fs: seq<Facet<F>>, format: F -> string): (r: seq<Result<string, Error>>)
    ensures |r| == 3 * |fs|
  {
    seq(3 * |fs|, i requires 0 <= i < 3 * |fs| => ObjAttempt(fs[i / 3], i % 3, format))
  }

  /** The `m`-th line `to_ascii` writes for a facet (seven per facet). */
  function AsciiAttempt<F>(f: Facet<F>, m: nat, format: F -> string): Result<string, Error>
    requires m < 7
  {
    if m == 0 then VectorLine(["facet", "normal"], f.normal, format)
    else if m == 1 then Success("outer loop")
    else if m <= 4 then VectorLine(["vertex"], Vertex(f, m - 2), format)
    else if m == 5 then Success("endloop")
    else Success("endfacet")
  }

  /** The facet lines of `to_ascii`, seven per facet. */
  function AsciiAttempts<F>(fs: seq<Facet<F>>, format: F -> string): (r: seq<Result<string, Error>>)
    ensures |r| == 7 * |fs|
  {
    seq(7 * |fs|, i requires 0 <= i < 7 * |fs| => AsciiAttempt(fs[i / 7], i % 7, format))
  }

  /** `range(lo, hi, 3)` */
  function Range3(lo: int, hi: int): (r: seq<int>)
    ensures |r| == if hi <= lo then 0 else (hi - lo + 2) / 3
    ensures forall j :: 0 <= j < |r| ==> r[j] == lo + 3 * j
    decreases hi - lo
  {
    if hi <= lo then [] else [lo] + Range3(lo + 3, hi)
  }

  /** `'f %s %s %s' % (i+1, i+2, i+3)` */
  function FaceLine(i: int): string {
    Words(["f", IntToString(i + 1), IntToString(i + 2), IntToString(i + 3)])
  }

  /** The face loop of `to_obj`: one `f` line per `i` in `range(offset, offset + count, 3)`. */
  function FaceLines(offset: int, count: nat): (r: seq<string>)
  {
    var starts := Range3(offset, offset + count);
    seq(|starts|, j requires 0 <= j < |starts| => FaceLine(starts[j]))
  }

  /** How a writer run ended: the records written, then the return value or the exception. */
  datatype Written<T> = Written(records: seq<string>, outcome: Result<T, Error>)

  /**
   `to_obj(obj, name, offset)` fed with the facet stream `facets`: `g default`,
   three `v` lines per facet, then `s 1`, `g <name>` and the face lines, and the
   vertex count is returned.  An exception from the stream or from formatting a
   short vertex ends the run after the records written so far.
   */
  function ToObj<F>(facets: Stream<Facet<F>>, arg: Option<string>, own: Option<string>, offset: int, format: F -> string)
    : (w: Written<nat>)
    ensures |w.records| > 0 && w.records[0] == "g default"
    ensures w.outcome.Success? <==> facets.end == Clean && AllComplete(facets.items)
    ensures w.outcome.Success? ==> w.outcome.value == 3 * |facets.items|
  {
    var body := Emit(ObjAttempts(facets.items, format));
    var head := ["g default"] + body.records;
    assert AllComplete(facets.items) <==> body.error.None? by {
      ObjAttemptsFail(facets.items, format);
    }
    if body.error.Some? then Written(head, Failure(body.error.value))
    else if facets.end.Raised? then Written(head, Failure(facets.end.error))
    else
      var count := 3 * |facets.items|;
      Written(head + ["s 1", "g " + ResolveName(arg, own)] + FaceLines(offset, count), Success(count))
  }

  lemma ObjAttemptAt<F>(fs: seq<Facet<F>>, j: nat, m: nat, format: F -> string)
    requires j < |fs| && m < 3
    ensures ObjAttempts(fs, format)[3 * j + m] == ObjAttempt(fs[j], m, format)
  {
    assert (3 * j + m) / 3 == j && (3 * j + m) % 3 == m;
  }

  /** Some `v` line fails exactly when some vertex is short. */
  lemma ObjAttemptsFail<F>(fs: seq<Facet<F>>, format: F -> string)
    ensures AllComplete(fs) <==> forall i :: 0 <= i < 3 * |fs| ==> ObjAttempts(fs, format)[i].Success?
  {
    var a := ObjAttempts(fs, format);
    if AllComplete(fs) {
      forall i | 0 <= i < 3 * |fs|
        ensures a[i].Success?
      {
        assert i == 3 * (i / 3) + i % 3;
        ObjAttemptAt(fs, i / 3, i % 3, format);
      }
    } else {
      var j :| 0 <= j < |fs| && !(Complete(fs[j].v1) && Complete(fs[j].v2) && Complete(fs[j].v3));
      var m := if !Complete(fs[j].v1) then 0 else if !Complete(fs[j].v2) then 1 else 2;
      ObjAttemptAt(fs, j, m, format);
      assert !a[3 * j + m].Success?;
    }
  }

  /** When every attempt succeeds, the records are exactly the attempts' values. */
  lemma EmitAll(attempts: seq<Result<string, Error>>)
    requires forall i :: 0 <= i < |attempts| ==> attempts[i].Success?
    ensures Emit(attempts).error.None?
    ensures forall i :: 0 <= i < |attempts| ==> Emit(attempts).records[i] == attempts[i].value
  {
    var e := Emit(attempts);
    if e.error.Some? {
      assert false;
    }
  }

  /**
   A complete run of `to_obj`: `g default`, then vertex `i % 3` of facet `i / 3`
   as line `i` of the vertex section, then `s 1` and `g <name>`, then face line
   `j` naming the vertices `offset + 3j + 1 .. offset + 3j + 3`.
   */
  lemma ToObjLayout<F>(facets: Stream<Facet<F>>, arg: Option<string>, own: Option<string>, offset: int, format: F -> string)
    requires ToObj(facets, arg, own, offset, format).outcome.Success?
    ensures var w := ToObj(facets, arg, own, offset, format);
      var n := |facets.items|;
      && |w.records| == 3 + 4 * n
      && w.records[0] == "g default"
      && (forall j, m :: 0 <= j < n && 0 <= m < 3 ==>
            w.records[1..1 + 3 * n][3 * j + m] == VectorLine(["v"], Vertex(facets.items[j], m), format).value)
      && w.records[1 + 3 * n] == "s 1"
      && w.records[2 + 3 * n] == "g " + ResolveName(arg, own)
      && (forall j :: 0 <= j < n ==> w.records[3 + 3 * n..][j] == FaceLine(offset + 3 * j))
  {
    var n := |facets.items|;
    var body := Emit(ObjAttempts(facets.items, format)).records;
    ToObjSections(facets, arg, own, offset, format);
    ObjBody(facets.items, format);
    assert (3 * n + 2) / 3 == n;
  }

  /** A complete run of `to_obj` is its four sections in order. */
  lemma ToObjSections<F>(facets: Stream<Facet<F>>, arg: Option<string>, own: Option<string>, offset: int, format: F -> string)
    requires ToObj(facets, arg, own, offset, format).outcome.Success?
    ensures var w := ToObj(facets, arg, own, offset, format);
      var body := Emit(ObjAttempts(facets.items, format)).records;
      var n := |facets.items|;
      && |body| == 3 * n
      && w.records == ["g default"] + body + ["s 1", "g " + ResolveName(arg, own)] + FaceLines(offset, 3 * n)
      && w.records[1..1 + 3 * n] == body
      && w.records[3 + 3 * n..] == FaceLines(offset, 3 * n)
  {
    var body := Emit(ObjAttempts(facets.items, format)).records;
    var tail := ["s 1", "g " + ResolveName(arg, own)];
    Sections("g default", body, tail, FaceLines(offset, 3 * |facets.items|));
  }

  /** The slices of a record list made of a first record and three sections. */
  lemma Sections(first: string, body: seq<string>, mid: seq<string>, rest: seq<string>)
    ensures var all := [first] + body + mid + rest;
      && all[1..1 + |body|] == body
      && all[1 + |body| + |mid|..] == rest
  {
  }

  /** With every vertex complete, the vertex section holds vertex `m` of facet `j` at line `3j + m`. */
  lemma ObjBody<F>(fs: seq<Facet<F>>, format: F -> string)
    requires AllComplete(fs)
    ensures var body := Emit(ObjAttempts(fs, format)).records;
      && |body| == 3 * |fs|
      && forall j, m :: 0 <= j < |fs| && 0 <= m < 3 ==> body[3 * j + m] == VectorLine(["v"], Vertex(fs[j], m), format).value
  {
    var a := ObjAttempts(fs, format);
    ObjAttemptsFail(fs, format);
    EmitAll(a);
    var body := Emit(a).records;
    forall j, m | 0 <= j < |fs| && 0 <= m < 3
      ensures body[3 * j + m] == VectorLine(["v"], Vertex(fs[j], m), format).value
    {
      ObjAttemptAt(fs, j, m, format);
    }
  }

  /**
   An interrupted run of `to_obj` writes `g default` and at most the `v` lines:
   never `s 1` and no face line; its exception is the short vertex's IndexError
   if one comes first, else the stream's own.
   */
  lemma ToObjFailure<F>(facets: Stream<Facet<F>>, arg: Option<string>, own: Option<string>, offset: int, format: F -> string)
    requires ToObj(facets, arg, own, offset, format).outcome.Failure?
    ensures var w := ToObj(facets, arg, own, offset, format);
      && |w.records| <= 1 + 3 * |facets.items|
      && (forall k :: 1 <= k < |w.records| ==> w.records[k][0] == 'v')
      && "s 1" !in w.records
      && w.outcome.error == (if AllComplete(facets.items) then facets.end.error else IndexError)
  {
    var w := ToObj(facets, arg, own, offset, format);
    var a := ObjAttempts(facets.items, format);
    var e := Emit(a);
    ObjAttemptsFail(facets.items, format);
    assert w.records == ["g default"] + e.records;
    forall k | 0 <= k < |e.records|
      ensures |e.records[k]| > 0 && e.records[k][0] == 'v'
    {
      EmittedVertexLine(facets.items, k, format);
    }
    assert forall k :: 1 <= k < |w.records| ==> w.records[k] == e.records[k - 1];
    assert "s 1"[0] == 's';
  }

  /** Every record the `v` lines emit is a `v` line. */
  lemma EmittedVertexLine<F>(fs: seq<Facet<F>>, k: nat, format: F -> string)
    requires k < |Emit(ObjAttempts(fs, format)).records|
    ensures var r := Emit(ObjAttempts(fs, format)).records[k]; |r| > 0 && r[0] == 'v'
  {
    var a := ObjAttempts(fs, format);
    assert k == 3 * (k / 3) + k % 3;
    ObjAttemptAt(fs, k / 3, k % 3, format);
    assert a[k].Success?;
    VectorLineKeyword(["v"], Vertex(fs[k / 3], k % 3), format);
  }

  /** A vector line starts with its keyword. */
  lemma VectorLineKeyword<F>(keyword: seq<string>, v: Vector<F>, format: F -> string)
    requires |keyword| > 0 && |keyword[0]| > 0
    requires VectorLine(keyword, v, format).Success?
    ensures VectorLine(keyword, v, format).value[0] == keyword[0][0]
  {
    WordsHead(keyword + [format(v[0]), format(v[1]), format(v[2])]);
  }

  /** Words joined by spaces start with the first word. */
  lemma WordsHead(ws: seq<string>)
    requires |ws| > 0 && |ws[0]| > 0
    ensures |Words(ws)| > 0 && Words(ws)[0] == ws[0][0]
  {
  }

  /** The normals never reach the OBJ output: facets that differ only in normals write the same. */
  lemma ToObjIgnoresNormals<F>(facets: Stream<Facet<F>>, others: Stream<Facet<F>>, arg: Option<string>, own: Option<string>, offset: int, format: F -> string)
    requires facets.end == others.end && |facets.items| == |others.items|
    requires forall j :: 0 <= j < |facets.items| ==>
      facets.items[j].v1 == others.items[j].v1 && facets.items[j].v2 == others.items[j].v2 && facets.items[j].v3 == others.items[j].v3
    ensures ToObj(facets, arg, own, offset, format) == ToObj(others, arg, own, offset, format)
  {
    var a, b := ObjAttempts(facets.items, format), ObjAttempts(others.items, format);
    forall i | 0 <= i < |a|
      ensures a[i] == b[i]
    {
      assert i == 3 * (i / 3) + i % 3;
      ObjAttemptAt(facets.items, i / 3, i % 3, format);
      ObjAttemptAt(others.items, i / 3, i % 3, format);
    }
    assert a == b;
  }

  /** The offset shifts the face indices only: what `to_obj` returns does not depend on it. */
  lemma ToObjOutcomeIgnoresOffset<F>(facets: Stream<Facet<F>>, arg: Option<string>, own: Option<string>, k1: int, k2: int, format: F -> string)
    ensures ToObj(facets, arg, own, k1, format).outcome == ToObj(facets, arg, own, k2, format).outcome
  {
  }

  /** The face line for start `i` splits into `f` and three words that read back as `i + 1`, `i + 2`, `i + 3`. */
  lemma FaceLineTokens(i: int)
    ensures Split(FaceLine(i)) == ["f", IntToString(i + 1), IntToString(i + 2), IntToString(i + 3)]
    ensures forall k :: 1 <= k <= 3 ==> IntValue(Split(FaceLine(i))[k]) == i + k
  {
    IntToStringValue(i + 1);
    IntToStringValue(i + 2);
    IntToStringValue(i + 3);
    var ws := ["f", IntToString(i + 1), IntToString(i + 2), IntToString(i + 3)];
    IntToStringWord(i + 1);
    IntToStringWord(i + 2);
    IntToStringWord(i + 3);
    assert IsWord("f");
    SplitWords(ws);
  }

  lemma IntToStringWord(i: int)
    ensures IsWord(IntToString(i))
  {
    var s := IntToString(i);
    if i < 0 {
      assert s == "-" + NatToString(-i);
      assert forall k :: 1 <= k < |s| ==> s[k] == NatToString(-i)[k - 1];
    }
  }

  /** One facet at offset 0 gives `f 1 2 3`; two facets after three vertices give `f 4 5 6` and `f 7 8 9`. */
  lemma FaceLinesExample()
    ensures FaceLines(0, 3) == ["f 1 2 3"]
    ensures FaceLines(3, 6) == ["f 4 5 6", "f 7 8 9"]
  {
    assert Range3(0, 3) == [0];
    assert Range3(3, 9) == [3, 6];
    FaceLineAt0();
    FaceLineAt3();
    FaceLineAt6();
    assert FaceLines(0, 3) == [FaceLine(0)];
    assert FaceLines(3, 6) == [FaceLine(3), FaceLine(6)];
  }

  lemma FaceLineAt0()
    ensures FaceLine(0) == "f 1 2 3"
  {
    assert IntToString(1) == "1" && IntToString(2) == "2" && IntToString(3) == "3";
  }

  lemma FaceLineAt3()
    ensures FaceLine(3) == "f 4 5 6"
  {
    assert IntToString(4) == "4" && IntToString(5) == "5" && IntToString(6) == "6";
  }

  lemma FaceLineAt6()
    ensures FaceLine(6) == "f 7 8 9"
  {
    assert IntToString(7) == "7" && IntToString(8) == "8" && IntToString(9) == "9";
  }

  /**
   `to_ascii(stlfile, name)` fed with the facet stream `facets`: `solid <name>`,
   seven lines per facet, then `endsolid <name>`.  An exception ends the run
   after the records written so far.
   */
  function ToAscii<F>(facets: Stream<Facet<F>>, arg: Option<string>, own: Option<string>, format: F -> string)
    : (w: Written<()>)
    ensures |w.records| > 0 && w.records[0] == "solid " + ResolveName(arg, own)
    ensures w.outcome.Success? ==> facets.end == Clean && w.records[|w.records| - 1] == "endsolid " + ResolveName(arg, own)
  {
    var name := ResolveName(arg, own);
    var body := Emit(AsciiAttempts(facets.items, format));
    var head := ["solid " + name] + body.records;
    if body.error.Some? then Written(head, Failure(body.error.value))
    else if facets.end.Raised? then Written(head, Failure(facets.end.error))
    else Written(head + ["endsolid " + name], Success(()))
  }

  lemma AsciiAttemptAt<F>(fs: seq<Facet<F>>, j: nat, m: nat, format: F -> string)
    requires j < |fs| && m < 7
    ensures AsciiAttempts(fs, format)[7 * j + m] == AsciiAttempt(fs[j], m, format)
  {
    assert (7 * j + m) / 7 == j && (7 * j + m) % 7 == m;
  }

  /** Every vector of every facet, normal included, has at least three components. */
  predicate AllVectorsComplete<F>(fs: seq<Facet<F>>) {
    forall j :: 0 <= j < |fs| ==> Complete(fs[j].normal) && Complete(fs[j].v1) && Complete(fs[j].v2) && Complete(fs[j].v3)
  }

  /** `to_ascii` completes exactly when the stream ends normally and no vector is short. */
  lemma ToAsciiSucceedsIff<F>(facets: Stream<Facet<F>>, arg: Option<string>, own: Option<string>, format: F -> string)
    ensures ToAscii(facets, arg, own, format).outcome.Success? <==> facets.end == Clean && AllVectorsComplete(facets.items)
  {
    var fs := facets.items;
    var a := AsciiAttempts(fs, format);
    if AllVectorsComplete(fs) {
      forall i | 0 <= i < |a|
        ensures a[i].Success?
      {
        assert i == 7 * (i / 7) + i % 7;
        AsciiAttemptAt(fs, i / 7, i % 7, format);
      }
      EmitAll(a);
    } else {
      var j :| 0 <= j < |fs| && !(Complete(fs[j].normal) && Complete(fs[j].v1) && Complete(fs[j].v2) && Complete(fs[j].v3));
      var m := if !Complete(fs[j].normal) then 0 else if !Complete(fs[j].v1) then 2 else if !Complete(fs[j].v2) then 3 else 4;
      AsciiAttemptAt(fs, j, m, format);
      assert a[7 * j + m].Failure?;
    }
  }

  /**
   A complete run of `to_ascii`: `solid <name>`, then line `i` of the facet
   section is line `i % 7` of facet `i / 7` (normal, outer loop, three vertices,
   endloop, endfacet), then `endsolid <name>`.
   */
  lemma ToAsciiLayout<F>(facets: Stream<Facet<F>>, arg: Option<string>, own: Option<string>, format: F -> string)
    requires ToAscii(facets, arg, own, format).outcome.Success?
    ensures var w := ToAscii(facets, arg, own, format);
      var n := |facets.items|;
      && |w.records| == 2 + 7 * n
      && w.records[0] == "solid " + ResolveName(arg, own)
      && (forall j, m :: 0 <= j < n && 0 <= m < 7 ==>
            Success(w.records[1..1 + 7 * n][7 * j + m]) == AsciiAttempt(facets.items[j], m, format))
      && w.records[1 + 7 * n] == "endsolid " + ResolveName(arg, own)
  {
    var w := ToAscii(facets, arg, own, format);
    var n := |facets.items|;
    var a := AsciiAttempts(facets.items, format);
    var e := Emit(a);
    assert e.error.None?;
    EmitAll(a);
    assert w.records == ["solid " + ResolveName(arg, own)] + e.records + ["endsolid " + ResolveName(arg, own)];
    assert w.records[1..1 + 7 * n] == e.records;
    forall j, m | 0 <= j < n && 0 <= m < 7
      ensures Success(e.records[7 * j + m]) == AsciiAttempt(facets.items[j], m, format)
    {
      AsciiAttemptAt(facets.items, j, m, format);
    }
  }

  /** Both writers resolve the same name: `to_obj`'s `g <name>` is `to_ascii`'s `solid <name>`. */
  lemma WritersAgreeOnName<F>(facets: Stream<Facet<F>>, arg: Option<string>, own: Option<string>, offset: int, format: F -> string)
    requires ToObj(facets, arg, own, offset, format).outcome.Success?
    ensures var obj := ToObj(facets, arg, own, offset, format).records;
      var stl := ToAscii(facets, arg, own, format).records;
      obj[2 + 3 * |facets.items|] == "g " + stl[0][6..]
  {
    ToObjLayout(facets, arg, own, offset, format);
    var nm := ResolveName(arg, own);
    assert ("solid " + nm)[6..] == nm;
  }
}
